=== FILE: README.md ===
# Health AI agent: session lifecycle model

This project models `HealthAIAgent`, the conversational health-and-wellness agent of the
Health-Ai server. It covers the following operations:

- session start (`get_initial_greeting`);
- one turn (`run`), which assembles the context, runs the executor and enriches the reply with a meme and audio;
- session end (`perform_final_processes`), which derives the user's mood and a summary of the history and writes both to the chat's summary row.

It also models the helpers these rely on:

- the chat-id lookup (`get_chat_id`);
- the session id `"{user_id}-{chat_id}"`;
- the document message inserted into the prompt list;
- the stride-2 pairing loop of the summariser;
- mood normalisation;
- meme-topic selection;
- the naming of generated audio files and their download URLs.

Everything outside the agent is a parameter of the model, collected in `Agent.Collaborators`. That covers:

- the language model, the function-calling executor and the tools;
- text extraction and speech synthesis;
- the file system, the environment and the profile store.

An exception raised by a collaborator is the `Raised` case of `Wrappers.Fallible`. The three MongoDB collections the agent touches are the fields of `SummaryStore.Database`:

- `chat_summaries` and `user_journeys` are sequences of documents in insertion order;
- `chat_turns` is a map from session id to that session's message history.

Modules, one per concern:

- `Wrappers`: `Option` and `Fallible`.
- `Text`: the Python string operations the agent relies on:
  - `str.strip()`, over the characters `isspace` accepts;
  - `str.lower()`;
  - `"\n".join`;
  - `str(int)`.
- `Conversation`: chat messages and the session id.
- `SummaryStore`: the summary and journey documents, and the queries on them:
  - the `find(...).sort("chat_id", -1)` cursor and `find_one` with a sort;
  - `update_one`, which changes only the first matching document;
  - the `Database` class.
- `PromptAssembly`: the prompt list built at construction, the document insert, chat-id resolution and what the executor is handed for a turn.
- `Summarizer`: `get_summary_from_chat_history`. This is the pairing rule, and a method with the loop itself.
- `Enrichment`: mood normalisation, meme-topic selection and text-to-speech naming.
- `Agent`: the `HealthAIAgent` class and the functions that specify its methods.

In several places the code behaves differently from what its names, comments and docstrings suggest. The model follows the code:

- **Mood.** The mood is only trimmed. It is not lower-cased, so `"Happy"` stays `"Happy"`. A blank answer gives the empty mood, not a non-empty label.
- **Meme fetch.** An exception from the meme-fetch tool is re-raised by `run` (the handler logs it and uses `raise`). It is not swallowed into an empty meme URL.
- **Extraction.** An exception from text extraction propagates out of `run`. The document fragment is not silently omitted.
- **Document position.** The document message is inserted at index 2, after both the role message and the `{past_summaries}` slot. It does not go before the summaries.
- **Greeting text.** The text a greeting appends to `system_message.content` never reaches the prompt. `base_prompt_messages` holds a copy of the system text made at construction, and `Valid()` keeps the prompt list tied to that copy.
- **Growing system message.** The appended text accumulates on the agent instance across greetings. `ExtendSystemMessage` states that the system message only grows.
- **History wrapping.** Every turn with history replaces the executor by itself wrapped in one more message-history layer. `HistoryLayersAccumulate` counts the layers, and each layer writes the turn into `chat_turns` once more (`HistoryAppend`).
- **Two ways to call the executor.** A turn with history calls `invoke` with the session id and reads `output`; a turn without calls `.run`. The wrapper stays on the agent, so a plain turn after a turn with history calls `.run` on the wrapper. The executor collaborator receives which call is made, so a wrapper that lacks `.run` can make that turn raise.
- **Summary write-back.** The summary memory of `get_summary_from_chat_history` is built on the session's own history. Every pair it summarises is therefore appended to that history again (see Findings).
- **Missing chat id at finalisation.** `perform_final_processes` with no chat id still computes the mood and the summary, and still writes the summary's pairs back, before `int(None)` raises.

## Model

| member | source | states |
|---|---|---|
| Text.Trim | server/agents/Health_AI_Agent.py:166 | `strip()` removes exactly the leading and trailing whitespace: the result has no whitespace at either end and is a contiguous slice of the input with only whitespace around it |
| Text.TrimUnique | server/agents/Health_AI_Agent.py:166 | any split of a text into whitespace, a core without whitespace at its ends, and whitespace, strips to that core |
| Text.TrimIdempotent | server/agents/Health_AI_Agent.py:341 | stripping twice is stripping once |
| Text.Lower | server/agents/Health_AI_Agent.py:341 | `lower()` keeps the length, maps every ASCII capital to its small letter and leaves every other character alone |
| Text.LowerIdempotent | server/agents/Health_AI_Agent.py:341 | lower-casing twice is lower-casing once |
| Text.TrimAfterLower | server/agents/Health_AI_Agent.py:341 | for every text, stripping then lower-casing equals lower-casing then stripping |
| Text.JoinSeparators | server/agents/Health_AI_Agent.py:243 | joining `n` parts with a one-character separator adds exactly `n - 1` separators to those the parts hold |
| Text.ParseNatToString | server/agents/Health_AI_Agent.py:233 | the decimal text of a natural number is all digits and parses back to the number |
| Text.IntToStringInjective | server/agents/Health_AI_Agent.py:233 | distinct integers print differently |
| Text.NatToString | server/agents/Health_AI_Agent.py:233 | the decimal text of a natural number is non-empty, all digits, and has no leading zero unless it is `0` |
| Text.IntToString | server/agents/Health_AI_Agent.py:233 | `str(n)` is non-empty, starts with `-` exactly when `n` is negative, and is all digits otherwise |
| Conversation.ChatIdText | server/agents/Health_AI_Agent.py:233 | a missing chat id prints as `None`, a present one as its decimal text |
| Conversation.ChatIdTextInjective | server/agents/Health_AI_Agent.py:233 | distinct chat ids, the missing one included, print differently |
| Conversation.SessionId | server/agents/Health_AI_Agent.py:233 | the session id is the user id, a hyphen and the chat id's text, with that length |
| Conversation.SessionIdInjective | server/agents/Health_AI_Agent.py:233 | for one user, distinct chat ids give distinct session ids, so histories of different chats never share a key |
| SummaryStore.UserRows | server/agents/Health_AI_Agent.py:241 | the `find({"user_id": ...})` filter keeps exactly the user's documents |
| SummaryStore.UserRowsMultiplicity | server/agents/Health_AI_Agent.py:241 | the filter keeps every copy of each of the user's documents and drops every other document |
| SummaryStore.SortByChatIdDesc | server/agents/Health_AI_Agent.py:241 | `sort("chat_id", -1)` gives a permutation of its input ordered by non-increasing chat id |
| SummaryStore.PastSummaryRows | server/agents/Health_AI_Agent.py:240-242 | the cursor is a permutation of the user's documents (the same multiset), most recent chat first |
| SummaryStore.MaxChatId | server/agents/Health_AI_Agent.py:185-191 | the largest chat id among the user's documents, `None` exactly when the user has none |
| SummaryStore.MostRecentChatId | server/agents/Health_AI_Agent.py:185-191 | `find_one` with a descending `chat_id` sort gives `None` exactly when the user has no document, and otherwise the chat id of one of the user's documents; `MostRecentIsMax` shows it is the largest |
| SummaryStore.MostRecentIsMax | server/agents/Health_AI_Agent.py:176-191 | `get_chat_id` returns the user's largest chat id, `None` for a user without summaries |
| SummaryStore.SummaryTexts | server/agents/Health_AI_Agent.py:243 | one text per document, in order, and `""` for a document without `summary_text` |
| SummaryStore.PastSummariesSeparators | server/agents/Health_AI_Agent.py:243 | when no summary holds a newline, the `past_summaries` text holds one newline fewer than the user has documents |
| SummaryStore.PastSummariesText | server/agents/Health_AI_Agent.py:241-243 | the `past_summaries` text is empty for a user without documents, and is not empty once one of the user's documents has a non-empty summary; `PastSummariesSeparators` counts its newlines |
| SummaryStore.RecentSummariesText | server/agents/Health_AI_Agent.py:457-460 | the `Previous Summaries` text is empty for a user without documents, and is the full `past_summaries` text when the user has at most two documents |
| SummaryStore.FirstMatch | server/agents/Health_AI_Agent.py:421-424 | the position of the first document with the user id and chat id, `None` exactly when there is none |
| SummaryStore.SetMoodAndSummary | server/agents/Health_AI_Agent.py:421-424 | `update_one` with `$set` changes only the first matching document, sets both its mood and summary, keeps its other fields, and leaves the collection as it was when nothing matches |
| SummaryStore.SetMoodAndSummaryIdempotent | server/agents/Health_AI_Agent.py:421-424 | repeating the same update changes nothing more |
| SummaryStore.UpdateHitsInsertedRow | server/agents/Health_AI_Agent.py:467-474 | an update keyed by a just-inserted document's user and chat id hits that document when no earlier document has the same key |
| SummaryStore.Database.InsertSummary | server/agents/Health_AI_Agent.py:467-474 | `insert_one` on `chat_summaries` appends the document and changes no other collection |
| SummaryStore.Database.InsertJourney | server/agents/Health_AI_Agent.py:477-484 | `insert_one` on `user_journeys` appends the document, after which the user has a journey |
| SummaryStore.Database.UpdateMoodAndSummary | server/agents/Health_AI_Agent.py:421-424 | the collection becomes `SetMoodAndSummary` of what it was, and nothing else changes |
| SummaryStore.AppendTurns | server/agents/Health_AI_Agent.py:93-105 | appending to a session's history puts the messages at its end and leaves every other session as it was |
| SummaryStore.AppendTurnsTwice | server/agents/Health_AI_Agent.py:93-105 | two appends to one session are one append of both, in order |
| SummaryStore.Database.AppendMessages | server/agents/Health_AI_Agent.py:93-105 | `chat_turns` becomes `AppendTurns` of what it was; the other collections do not change |
| PromptAssembly.BasePrompt | server/agents/Health_AI_Agent.py:63-79 | the prompt list has 15 entries: the role message with the system text, the `{past_summaries}` slot, the ten tool messages, the user id, the input and the scratchpad, in that order |
| PromptAssembly.PromptWithDocument | server/agents/Health_AI_Agent.py:251-258 | without extracted text the list is the base list; with it the list is one longer and holds the document message and every entry of the base list; `PromptWithDocumentShape` gives the position |
| PromptAssembly.PromptWithDocumentShape | server/agents/Health_AI_Agent.py:252-258 | with extracted text, the prompt list is one longer, the document message sits at index 2, and removing it gives the base list back; without it, the list is the base list |
| PromptAssembly.DocumentAfterSummariesSlot | server/agents/Health_AI_Agent.py:63-65 | in the prompt list of a turn with a document, the role message and the `{past_summaries}` slot come before the document message |
| PromptAssembly.ResolveChatId | server/agents/Health_AI_Agent.py:230-231 | a given chat id is kept; without one the chat is `None` exactly when the user has no summary, and otherwise one of the user's chat ids (`ResolveChatIdFallback`: the largest) |
| PromptAssembly.ResolveChatIdFallback | server/agents/Health_AI_Agent.py:230-231 | without a chat id a turn runs in the user's chat with the largest id, and in chat `None` exactly when the user has no summary |
| PromptAssembly.ExtractedText | server/agents/Health_AI_Agent.py:246-248 | extraction runs, and its result or exception is the turn's, exactly when both the file content and the MIME type are present and non-empty; otherwise the extracted text is empty |
| Summarizer.FoldedIndicesBelowExact | server/agents/Health_AI_Agent.py:397-402 | a position is folded exactly when it is even, has a successor, holds a human message and its successor is not human; folded positions increase |
| Summarizer.FoldedPairsExact | server/agents/Health_AI_Agent.py:397-402 | the same for the whole history; the last message of an odd-length history is never folded |
| Summarizer.SkipsHumanHuman | server/agents/Health_AI_Agent.py:397-402 | in human, AI, human, human, AI only the first pair is folded: two human messages in a row break the pairing |
| Summarizer.NoResynchronisation | server/agents/Health_AI_Agent.py:397-402 | in any history where one reply leads and human messages and replies then alternate, nothing is folded, because the stride never shifts to odd positions |
| Summarizer.CondenseStopsAtRaise | server/agents/Health_AI_Agent.py:402 | once a `save_context` raises, later pairs do not matter: the summary is that exception |
| Summarizer.Condense | server/agents/Health_AI_Agent.py:397-402 | folding the saved pairs into the summary buffer starts from the empty buffer and can raise only when there is a pair to save; `CondenseStopsAtRaise` gives what a raise does |
| Summarizer.EchoStopsAtRaise | server/agents/Health_AI_Agent.py:402 | once a `save_context` raises, no later pair is written back to the history |
| Summarizer.Echoed | server/agents/Health_AI_Agent.py:397-402 | saving pairs writes back an even number of messages, at most two per saved pair |
| Summarizer.EchoedIsPrefix | server/agents/Health_AI_Agent.py:397-402 | what the saves write back is a prefix of every saved pair written as a human and an AI message; `Echoed` and `EchoStopsAtRaise` say where the prefix ends |
| Summarizer.EchoWhenSummarySucceeds | server/agents/Health_AI_Agent.py:397-402 | when no save raises, summarising appends every folded pair to the history again, as a human and an AI message, in folding order |
| Summarizer.HistorySummary | server/agents/Health_AI_Agent.py:397-406 | a history with no folded pair summarises to the empty buffer; `SummaryFromHistory` shows the loop computes this fold |
| Summarizer.HistoryEcho | server/agents/Health_AI_Agent.py:397-402 | the write-back of a stored history is a prefix of its folded pairs written as human and AI messages, at most two messages per folded pair |
| Summarizer.SummaryFromHistory | server/agents/Health_AI_Agent.py:380-406 | the loop over positions `0, 2, 4, ...` returns the fold of exactly the qualifying pairs, in order, or the first exception; the session history grows by each folded pair up to and including the one that raised, and no other collection changes |
| Enrichment.NormalizeMood | server/agents/Health_AI_Agent.py:166-169 | the mood is the stripped answer, except that an answer stripping to `None` gives `neutral`; it is always stripped and never `None` |
| Enrichment.NormalizeMoodIdempotent | server/agents/Health_AI_Agent.py:166-169 | normalising a mood again changes nothing |
| Enrichment.NoneBecomesNeutral | server/agents/Health_AI_Agent.py:166-168 | `None` with any whitespace around it gives `neutral` |
| Enrichment.MoodKeepsCase | server/agents/Health_AI_Agent.py:166 | a capitalised answer such as ` Happy ` keeps its case |
| Enrichment.BlankAnswerGivesEmptyMood | server/agents/Health_AI_Agent.py:166 | every all-whitespace answer, the empty one included, gives the empty mood |
| Enrichment.MemeTopicPrompt | server/agents/Health_AI_Agent.py:327-338 | the first-turn prompt is the vocabulary header, the reply and the closing line; the open prompt is its header followed by the reply and nothing else |
| Enrichment.MemeTopicPromptQuotes | server/agents/Health_AI_Agent.py:327-338 | both topic prompts hold the reply verbatim at a fixed offset, and the first-turn prompt differs from the open one |
| Enrichment.DetermineMemeTopic | server/agents/Health_AI_Agent.py:323-344 | the topic is `funny` when the model call raises, and otherwise the model's answer stripped and lower-cased, never longer than the answer |
| Enrichment.MemeTopicNormalized | server/agents/Health_AI_Agent.py:341 | every topic is stripped and has no ASCII capital |
| Enrichment.SpeechLanguage | server/agents/Health_AI_Agent.py:357 | never empty: the user's preferred language when it is set and non-empty, `en` otherwise |
| Enrichment.AudioFileName | server/agents/Health_AI_Agent.py:362 | the file name starts with the user id and `_` and ends in `.wav`; `AudioFileNameInjective` shows it tells turns apart |
| Enrichment.AudioDownloadUrl | server/agents/Health_AI_Agent.py:367-368 | the URL is the configured base, `http://localhost:8000` when unset, followed by `/ai_mentor/download_audio/` and the file name |
| Enrichment.ConvertTextToSpeech | server/agents/Health_AI_Agent.py:347-372 | a failed lookup or a missing user gives the empty pair, and a URL is always the download URL of the turn's file name; `SpeechSucceedsExactly` gives the exact condition |
| Enrichment.SpeechSucceedsExactly | server/agents/Health_AI_Agent.py:347-372 | speech gives a URL exactly when the user is found, synthesis returns non-empty audio and the write succeeds; the URL is the base URL, the download path and `{user_id}_{chat_id}_{turn_id}.wav`; every failure gives the empty pair |
| Enrichment.AudioFileNameInjective | server/agents/Health_AI_Agent.py:362 | for one user, two turns that share an audio file name share both the chat id and the turn id |
| Agent.FirstToolIndex | server/agents/Health_AI_Agent.py:314-321 | the position of the first tool with the name, `None` exactly when no tool has it |
| Agent.HealthAIAgent.GetToolByName | server/agents/Health_AI_Agent.py:314-321 | the loop returns the first tool with the name, and `None` exactly when no tool has it |
| Agent.ToolNamed | server/agents/Health_AI_Agent.py:314-321 | `None` exactly when no tool has the name; otherwise a tool with the name that no earlier tool shares |
| Agent.Enrich | server/agents/Health_AI_Agent.py:286-310 | enrichment keeps the reply as the message, fails exactly when the meme tool exists and raises, has a meme URL exactly when the tool exists, that URL being the tool's result for the topic, and carries the speech result |
| Agent.ExecutorForTurn | server/agents/Health_AI_Agent.py:272-276 | the executor is built only when missing, and a turn with history wraps it in one more history layer |
| Agent.HistoryLayersAccumulate | server/agents/Health_AI_Agent.py:272-276 | after a series of turns on a fresh agent, the function-calling executor sits under as many history layers as there were turns with history |
| Agent.HistoryAppend | server/agents/Health_AI_Agent.py:115-126 | each history layer writes the rendered prompt as a human message and the reply as an AI message, so the turn is written once per layer |
| Agent.RenderedPrompt | server/agents/Health_AI_Agent.py:246-269 | an extraction exception is the rendering's; otherwise the renderer receives the prompt list with the extracted text, for the turn's session and history setting |
| Agent.TurnOutcome | server/agents/Health_AI_Agent.py:215-310 | a turn without history writes nothing to the history, and a turn returns a result or writes history only after its prompt renders; `TurnFailsOnlyWhen` and `TurnRecordsHistory` give the rest |
| Agent.TurnFailsOnlyWhen | server/agents/Health_AI_Agent.py:246-310 | a turn fails exactly when extraction, rendering, the executor or an existing meme tool raises; the meme topic and the audio never fail a turn |
| Agent.TurnRecordsHistory | server/agents/Health_AI_Agent.py:274-282 | a turn writes to its session's history exactly when it uses history and the executor returns, ending with the prompt and the reply, and the write stays when the meme tool fails afterwards |
| Agent.TurnWithoutChatIdUsesMostRecent | server/agents/Health_AI_Agent.py:230-233 | a turn without a chat id is the same turn as one in the user's chat with the largest id |
| Agent.FinalizeWritesBoth | server/agents/Health_AI_Agent.py:408-425 | a mood failure writes nothing and is reported before the summary is tried; otherwise the summary's pairs are written back to the history; on success the chat's document gets the normalised mood and the summary together and no other document changes; without a chat id no document is written |
| Agent.FinalizedWith | server/agents/Health_AI_Agent.py:408-425 | a summary document changes only when finalisation succeeds |
| Agent.Finalized | server/agents/Health_AI_Agent.py:380-425 | as written, finalisation reports what finalisation without write-back reports and leaves the same summary documents; only the session history differs |
| Agent.FinalizedWithoutEcho | server/agents/Health_AI_Agent.py:408-425 | with a summary memory that only reads the history, finalisation leaves the session histories as they were and changes a document only on success |
| Agent.FinalizeTwiceEchoes | server/agents/Health_AI_Agent.py:381-402 | as written, a chat with one (human, reply) pair finalised twice ends with four pairs in its history after the second run, two after the first, so the second run does not leave what the first left |
| Agent.FinalizeIdempotentWithoutEcho | server/agents/Health_AI_Agent.py:408-425 | with a summary memory that only reads the history, finalising a chat twice in a row leaves what finalising once left |
| Agent.IntroductionOnlyForNewUsers | server/agents/Health_AI_Agent.py:476-503 | a new user's greeting text is a returning user's plus the introduction, and after the journey insert the user is a returning user |
| Agent.GreetingRowIsFinalized | server/agents/Health_AI_Agent.py:464-474 | the summary document a greeting creates is the one a later finalisation of that chat fills with mood and summary |
| Agent.GreetingLanguage | server/agents/Health_AI_Agent.py:446 | the greeting's language is `en` without a profile or without the key; it is empty only when the profile stores an empty language, and otherwise agrees with the speech language |
| Agent.LanguageInstruction | server/agents/Health_AI_Agent.py:449-453 | the instruction is its fixed lead, the user's language and a fixed tail, and the tail ends with the unfilled placeholder `{preferred_language}` because only the first piece of the string is an f-string |
| Agent.GreetingAppendix | server/agents/Health_AI_Agent.py:446-503 | the appended text starts with the language instruction, and for a returning user without summaries it is the language instruction alone; `IntroductionOnlyForNewUsers` adds the introduction for a new user |
| Agent.HealthAIAgent.constructor | server/agents/Health_AI_Agent.py:46-88 | the system message is the formatted text, the prompt list is built from it, and there is no executor yet |
| Agent.HealthAIAgent.InitializeAgentExecutor | server/agents/Health_AI_Agent.py:196-210 | the executor is created on the first call and left alone afterwards |
| Agent.HealthAIAgent.Run | server/agents/Health_AI_Agent.py:215-310 | the result and the session-history write are `TurnOutcome` of the stored collections and the executor held before the turn; once the prompt renders the executor is `ExecutorForTurn` of the old one, before that it is untouched; the summaries and journeys are unchanged |
| Agent.HealthAIAgent.PerformFinalProcesses | server/agents/Health_AI_Agent.py:408-425 | the summaries, the outcome and the session histories become `Finalized` of the old collections: the summary's pairs are written back once the mood call succeeds, the row only when mood, summary and chat id are all there; journeys are unchanged |
| Agent.HealthAIAgent.ExtendSystemMessage | server/agents/Health_AI_Agent.py:446-503 | the system message grows by the language instruction, the two most recent summaries when their text is not empty, and the introduction for a user without a journey |
| Agent.HealthAIAgent.GetInitialGreeting | server/agents/Health_AI_Agent.py:430-516 | a failed profile lookup changes nothing; otherwise the system message grows as above, one summary document with empty mood and summary is appended, a journey is created only when missing, and the result and the history write are those of turn 0 with an empty message in the new chat |

## Left out

- Logging, `print`, and the `verbose`/`handle_parsing_errors` executor options change no state the model tracks.
- The language model, the executor's function calling, the tools, text extraction, speech synthesis, the profile store and the user lookup are parameters of the model. Their behaviour is not modelled.
- The timestamp and ISO time of `get_initial_greeting` are parameters. `int(now.timestamp())` is not modelled, and neither is the chance of two greetings in the same second.
- The audio directory setup in `__init__` and the file write are left out. The write is a parameter that reports success or failure.
- `Database.SessionMessages`: `get_session_history` is modelled as a map lookup in `chat_turns`. Connection strings and the `history or []` fallback are not modelled beyond a missing session reading as empty.
- Enrichment.NormalizeMood: the mood model receives the history after `trim_messages` (65 tokens, last messages, starting on a human message). Token counting depends on the model's tokenizer, so the trimmed history is whatever the mood collaborator is handed.
- Agent.Enrich: the dictionary the source returns is the `TurnResult` datatype.
- Agent.HistoryAppend: the message-history wrapper is library code outside this model. Each layer is modelled as writing the rendered prompt and the output after a successful run, innermost layer first; what the executor does with the history it reads is the executor collaborator's business.
- Rendering the prompt (`ChatPromptTemplate.format`) is a collaborator. The model does not describe the rendered text, only that rendering may raise and what it is given.
- Summarizer.SummaryFromHistory: `ConversationSummaryMemory` is a condensing collaborator called once per folded pair, after that pair is appended to the history. `load_memory_variables` is its final buffer. The initial buffer is empty.
- Text.Lower: `str.lower()` is modelled for ASCII letters only. Non-ASCII case mappings are not modelled.
- Agent.GreetingLanguage: a profile whose `preferredLanguage` is JSON `null` is treated like a profile without the key. The source would print `None`.
- The `user_id=None` default of `run` is not modelled: the user id is always a string. A missing user id would print as `None` in the session id.
- A chat id handed to `perform_final_processes` as text is not modelled. The chat id is an integer or missing.
- `get_agent_memory` always returns `None` and is not called, so it is not modelled.
- The `AIAgent` base class and `SYSTEM_MESSAGE.format(role=...)` are outside this model. The formatted system text is a constructor parameter.
- Python integer widths are not an issue: chat ids and turn ids are unbounded integers in both the source and the model.

## Findings

| source | as written | input that shows it | evidently intended | confidence | as-written member | corrected member |
|---|---|---|---|---|---|---|
| server/agents/Health_AI_Agent.py:381-402 | the summary memory is built on the session's own history, so every `save_context` appends the pair it summarises to that history | a chat whose history is one human message and one reply, finalised twice with calls that succeed: the history grows to two pairs and then to four | summarising only reads the history, so finalising again changes nothing | medium, not executed | Agent.FinalizeTwiceEchoes | Agent.FinalizeIdempotentWithoutEcho |

=== FILE: agent.dfy ===
/** The `HealthAIAgent` class: session start, one turn, and end-of-session finalisation,
    around a language model and stores it reaches through collaborators. */
module Agent {
  import opened Wrappers
  import opened Conversation
  import opened SummaryStore
  import opened PromptAssembly
  import opened Summarizer
  import opened Enrichment

  /** A tool of the agent, looked up by name. */
  datatype Tool = Tool(name: string, description: string)

  /** The function-calling executor, built once from the tools, and that executor wrapped
      in a message-history runnable, possibly more than once. */
  datatype Executor = FunctionsAgent(tools: seq<Tool>) | WithHistory(inner: Executor)

  /** The services the agent calls but does not define; an exception is `Raised`.
      - extractText: document text extraction from file bytes and MIME type;
      - render: `ChatPromptTemplate.format`, the prompt list rendered into one text with
        the request's values bound to its slots; it raises on a malformed template, such
        as a document whose text holds an unmatched brace;
      - execute: an executor called on the rendered prompt, given the session history it
        reads (empty on a turn without history); the flag says which call: `invoke` with
        the session id (a turn with history) or `.run` (a turn without). A plain turn
        after a turn with history calls `.run` on the history wrapper the agent still
        holds, and the collaborator may raise there, as that wrapper need not offer `.run`;
      - invokeModel: one model call on a prompt, returning the answer text;
      - runTool: a tool's function applied to an argument;
      - findUser: the user lookup before speech synthesis;
      - synthesize: speech synthesis of a text in a language;
      - writeAudio: writing audio bytes under a file name, false when the write fails;
      - backendBaseUrl: the `BACKEND_BASE_URL` setting, `None` when unset;
      - moodReply: the mood model call on a (trimmed) history;
      - condense: one summary-memory save, folding an (input, output) pair into the buffer;
      - userProfile: the stored profile of a user, `None` when there is none; it raises
        when the lookup fails or the stored profile is not valid JSON. */
  datatype Collaborators = Collaborators(
    extractText: (seq<bv8>, string) -> Fallible<string>,
    render: TurnRequest -> Fallible<string>,
    execute: (Executor, bool, string, seq<ChatMessage>) -> Fallible<string>,
    invokeModel: string -> Fallible<string>,
    runTool: (Tool, string) -> Fallible<string>,
    findUser: string -> Fallible<Option<UserRecord>>,
    synthesize: (string, string) -> Fallible<seq<bv8>>,
    writeAudio: (string, seq<bv8>) -> bool,
    backendBaseUrl: Option<string>,
    moodReply: seq<ChatMessage> -> Fallible<string>,
    condense: (string, string, string) -> Fallible<string>,
    userProfile: string -> Fallible<Option<UserRecord>>)

  /** What `run` returns for a turn: the model's text, the meme URL and the audio result. */
  datatype TurnResult = TurnResult(message: string, memeUrl: Option<string>, audio: SpeechResult)

  /** What `get_initial_greeting` returns: the first turn's result and the new chat id. */
  datatype Greeting = Greeting(message: TurnResult, chatId: int)

  const MemeToolName: string := "fetch_meme"

  // ---------------------------------------------------------------------------
  // get_tool_by_name
  // ---------------------------------------------------------------------------

  /** The position of the first tool with the given name. */
  function FirstToolIndex(tools: seq<Tool>, name: string): (r: Option<nat>)
    ensures r.None? <==> forall i :: 0 <= i < |tools| ==> tools[i].name != name
    ensures r.Some? ==> r.value < |tools| && tools[r.value].name == name
    ensures r.Some? ==> forall i :: 0 <= i < r.value ==> tools[i].name != name
  {
    if tools == [] then None
    else if tools[0].name == name then Some(0)
    else match FirstToolIndex(tools[1..], name)
      case None => None
      case Some(k) => Some(k + 1)
  }

  /** The first tool with the given name, if any. */
  function ToolNamed(tools: seq<Tool>, name: string): (r: Option<Tool>)
    ensures r.None? <==> forall t :: t in tools ==> t.name != name
    ensures r.Some? ==> exists i :: 0 <= i < |tools| && tools[i] == r.value && r.value.name == name
                                    && forall j :: 0 <= j < i ==> tools[j].name != name
  {
    match FirstToolIndex(tools, name)
    case None => None
    case Some(i) => Some(tools[i])
  }

  // ---------------------------------------------------------------------------
  // One turn
  // ---------------------------------------------------------------------------

  /** The enrichment of a turn's text: the meme topic, the meme URL when a meme tool
      exists, and the audio. Only the meme tool can make the turn fail. */
  function Enrich(text: string, userId: string, chatId: Option<int>, turnId: Option<int>,
                  memeTool: Option<Tool>, c: Collaborators): (r: Fallible<TurnResult>)
    ensures var topic := DetermineMemeTopic(text, IsInitial(turnId), c.invokeModel);
      r.Raised? <==> memeTool.Some? && c.runTool(memeTool.value, topic).Raised?
    ensures r.Ok? ==> r.value.message == text
    ensures r.Ok? ==> r.value.audio == ConvertTextToSpeech(text, userId, chatId, turnId, c.findUser,
                                                             c.synthesize, c.writeAudio, c.backendBaseUrl)
    ensures r.Ok? ==> (r.value.memeUrl.None? <==> memeTool.None?)
    ensures var topic := DetermineMemeTopic(text, IsInitial(turnId), c.invokeModel);
      r.Ok? && memeTool.Some? ==> r.value.memeUrl == Some(c.runTool(memeTool.value, topic).value)
  {
    var topic := DetermineMemeTopic(text, IsInitial(turnId), c.invokeModel);
    var meme: Fallible<Option<string>> :=
      if memeTool.None? then Ok(None)
      else match c.runTool(memeTool.value, topic)
        case Raised(e) => Raised(e)
        case Ok(url) => Ok(Some(url));
    match meme
    case Raised(e) => Raised(e)
    case Ok(memeUrl) =>
      Ok(TurnResult(text, memeUrl,
                    ConvertTextToSpeech(text, userId, chatId, turnId, c.findUser, c.synthesize,
                                        c.writeAudio, c.backendBaseUrl)))
  }

  /** The executor a turn runs on: the existing one, or a new one built from the tools,
      wrapped once more in message history when the turn uses history. */
  function ExecutorForTurn(current: Option<Executor>, tools: seq<Tool>, withHistory: bool): (r: Executor)
    ensures withHistory ==> r.WithHistory? && r.inner == current.GetOr(FunctionsAgent(tools))
    ensures !withHistory ==> r == current.GetOr(FunctionsAgent(tools))
  {
    var built := if current.Some? then current.value else FunctionsAgent(tools);
    if withHistory then WithHistory(built) else built
  }

  /** The number of history wrappers around the function-calling executor. */
  function HistoryLayers(e: Executor): nat
  {
    match e
    case FunctionsAgent(_) => 0
    case WithHistory(inner) => HistoryLayers(inner) + 1
  }

  /** The executor after a series of turns, each with or without history. */
  function ExecutorAfterTurns(current: Option<Executor>, tools: seq<Tool>, turns: seq<bool>): Option<Executor>
  {
    if turns == [] then current
    else Some(ExecutorForTurn(ExecutorAfterTurns(current, tools, turns[..|turns| - 1]), tools, turns[|turns| - 1]))
  }

  /** The executor inside all history wrappers. */
  function Innermost(e: Executor): Executor
  {
    match e
    case FunctionsAgent(_) => e
    case WithHistory(inner) => Innermost(inner)
  }

  /** The number of turns with history. */
  function CountTrue(bs: seq<bool>): nat
  {
    if bs == [] then 0 else (if bs[0] then 1 else 0) + CountTrue(bs[1..])
  }

  lemma {:induction false} CountTrueSnoc(bs: seq<bool>, b: bool)
    ensures CountTrue(bs + [b]) == CountTrue(bs) + (if b then 1 else 0)
  {
    if bs != [] {
      assert (bs + [b])[1..] == bs[1..] + [b];
      CountTrueSnoc(bs[1..], b);
    }
  }

  /** The executor is never rebuilt, and every turn with history adds one wrapper: after
      `n` such turns on a fresh agent the executor is wrapped `n` times. */
  lemma {:induction false} HistoryLayersAccumulate(tools: seq<Tool>, turns: seq<bool>)
    ensures var e := ExecutorAfterTurns(None, tools, turns);
      e.Some? <==> turns != []
    ensures var e := ExecutorAfterTurns(None, tools, turns);
      e.Some? ==> HistoryLayers(e.value) == CountTrue(turns) && Innermost(e.value) == FunctionsAgent(tools)
  {
    if turns != [] {
      HistoryLayersAccumulate(tools, turns[..|turns| - 1]);
      assert turns[..|turns| - 1] + [turns[|turns| - 1]] == turns;
      CountTrueSnoc(turns[..|turns| - 1], turns[|turns| - 1]);
    }
  }

  /** What one history wrapper writes after a successful run: the rendered prompt as a
      human message and the executor's output as an AI message. Every wrapper around the
      executor writes its own copy, innermost first. */
  function HistoryAppend(e: Executor, rendered: string, text: string): (r: seq<ChatMessage>)
    ensures |r| == 2 * HistoryLayers(e)
    ensures forall j :: 0 <= j < HistoryLayers(e) ==>
              r[2 * j] == ChatMessage(Human, rendered) && r[2 * j + 1] == ChatMessage(Ai, text)
  {
    match e
    case FunctionsAgent(_) => []
    case WithHistory(inner) => HistoryAppend(inner, rendered, text) + [ChatMessage(Human, rendered), ChatMessage(Ai, text)]
  }

  /** What a turn returns, and the messages it appends to its session's history. */
  datatype TurnEffect = TurnEffect(result: Fallible<TurnResult>, appended: seq<ChatMessage>)

  /** The rendered prompt of a turn: extraction first, then the prompt list with the
      document inserted, rendered with the request's values. */
  function RenderedPrompt(base: seq<PromptMessage>, rows: seq<SummaryRow>, message: string,
                          fileContent: Option<seq<bv8>>, mimeType: Option<string>,
                          withHistory: bool, userId: string, resolved: Option<int>,
                          c: Collaborators): (r: Fallible<string>)
    ensures ExtractedText(fileContent, mimeType, c.extractText).Raised? ==>
              r == Raised(ExtractedText(fileContent, mimeType, c.extractText).error)
    ensures ExtractedText(fileContent, mimeType, c.extractText).Ok? ==>
              var request := AssembleRequest(base, rows, message, userId, resolved,
                                             ExtractedText(fileContent, mimeType, c.extractText).value, withHistory);
              && r == c.render(request)
              && request.sessionId == SessionId(userId, resolved)
              && request.withHistory == withHistory
  {
    match ExtractedText(fileContent, mimeType, c.extractText)
    case Raised(e) => Raised(e)
    case Ok(extracted) => c.render(AssembleRequest(base, rows, message, userId, resolved, extracted, withHistory))
  }

  /** The effect of `run` for one turn, as a function of the stored collections and of
      the executor the agent holds before the turn. */
  function TurnOutcome(base: seq<PromptMessage>, rows: seq<SummaryRow>, turns: map<string, seq<ChatMessage>>,
                       tools: seq<Tool>, executor: Option<Executor>,
                       message: string, fileContent: Option<seq<bv8>>, mimeType: Option<string>,
                       withHistory: bool, userId: string, chatId: Option<int>, turnId: Option<int>,
                       c: Collaborators): (r: TurnEffect)
    ensures !withHistory ==> r.appended == []
    ensures r.result.Ok? || r.appended != [] ==>
              RenderedPrompt(base, rows, message, fileContent, mimeType, withHistory, userId,
                             ResolveChatId(chatId, rows, userId), c).Ok?
  {
    var resolved := ResolveChatId(chatId, rows, userId);
    match RenderedPrompt(base, rows, message, fileContent, mimeType, withHistory, userId, resolved, c)
    case Raised(e) => TurnEffect(Raised(e), [])
    case Ok(rendered) =>
      var e := ExecutorForTurn(executor, tools, withHistory);
      var history := if withHistory then SessionHistory(turns, SessionId(userId, resolved)) else [];
      match c.execute(e, withHistory, rendered, history)
      case Raised(err) => TurnEffect(Raised(err), [])
      case Ok(text) =>
        var appended := if withHistory then HistoryAppend(e, rendered, text) else [];
        TurnEffect(Enrich(text, userId, resolved, turnId, ToolNamed(tools, MemeToolName), c), appended)
  }

  /** A turn fails exactly when extraction, rendering or the executor fails, or the meme
      tool exists and fails: the meme topic and the audio never fail a turn. */
  lemma TurnFailsOnlyWhen(base: seq<PromptMessage>, rows: seq<SummaryRow>, turns: map<string, seq<ChatMessage>>,
                          tools: seq<Tool>, executor: Option<Executor>,
                          message: string, fileContent: Option<seq<bv8>>, mimeType: Option<string>,
                          withHistory: bool, userId: string, chatId: Option<int>, turnId: Option<int>,
                          c: Collaborators)
    ensures var resolved := ResolveChatId(chatId, rows, userId);
      var p := RenderedPrompt(base, rows, message, fileContent, mimeType, withHistory, userId, resolved, c);
      var ex := ExtractedText(fileContent, mimeType, c.extractText);
      && (ex.Raised? ==> p == Raised(ex.error))
      && (p.Raised? ==> TurnOutcome(base, rows, turns, tools, executor, message, fileContent, mimeType,
                                    withHistory, userId, chatId, turnId, c) == TurnEffect(Raised(p.error), []))
    ensures var resolved := ResolveChatId(chatId, rows, userId);
      var p := RenderedPrompt(base, rows, message, fileContent, mimeType, withHistory, userId, resolved, c);
      var tool := ToolNamed(tools, MemeToolName);
      var outcome := TurnOutcome(base, rows, turns, tools, executor, message, fileContent, mimeType,
                                 withHistory, userId, chatId, turnId, c).result;
      var history := if withHistory then SessionHistory(turns, SessionId(userId, resolved)) else [];
      p.Ok? ==>
        var reply := c.execute(ExecutorForTurn(executor, tools, withHistory), withHistory, p.value, history);
        (outcome.Raised? <==>
           || reply.Raised?
           || (tool.Some? && c.runTool(tool.value, DetermineMemeTopic(reply.value, IsInitial(turnId), c.invokeModel)).Raised?))
  {
  }

  /** A turn writes to its session's history exactly when it uses history and the
      executor returns; the write is the rendered prompt and the reply, once per history
      wrapper, and it stays even when the meme tool then fails the turn. */
  lemma TurnRecordsHistory(base: seq<PromptMessage>, rows: seq<SummaryRow>, turns: map<string, seq<ChatMessage>>,
                           tools: seq<Tool>, executor: Option<Executor>,
                           message: string, fileContent: Option<seq<bv8>>, mimeType: Option<string>,
                           withHistory: bool, userId: string, chatId: Option<int>, turnId: Option<int>,
                           c: Collaborators)
    ensures var resolved := ResolveChatId(chatId, rows, userId);
      var p := RenderedPrompt(base, rows, message, fileContent, mimeType, withHistory, userId, resolved, c);
      var e := ExecutorForTurn(executor, tools, withHistory);
      var effect := TurnOutcome(base, rows, turns, tools, executor, message, fileContent, mimeType,
                                withHistory, userId, chatId, turnId, c);
      var history := if withHistory then SessionHistory(turns, SessionId(userId, resolved)) else [];
      && (effect.appended != [] <==> withHistory && p.Ok? && c.execute(e, withHistory, p.value, history).Ok?)
      && (effect.appended != [] ==>
            && |effect.appended| == 2 * HistoryLayers(e)
            && effect.appended[|effect.appended| - 2..]
               == [ChatMessage(Human, p.value), ChatMessage(Ai, c.execute(e, withHistory, p.value, history).value)])
  {
    var resolved := ResolveChatId(chatId, rows, userId);
    var p := RenderedPrompt(base, rows, message, fileContent, mimeType, withHistory, userId, resolved, c);
    var e := ExecutorForTurn(executor, tools, withHistory);
    var history := if withHistory then SessionHistory(turns, SessionId(userId, resolved)) else [];
    var effect := TurnOutcome(base, rows, turns, tools, executor, message, fileContent, mimeType,
                              withHistory, userId, chatId, turnId, c);
    if withHistory && p.Ok? && c.execute(e, withHistory, p.value, history).Ok? {
      var a := HistoryAppend(e, p.value, c.execute(e, withHistory, p.value, history).value);
      assert effect.appended == a;
      assert a[|a| - 2] == a[2 * (HistoryLayers(e) - 1)];
      assert a[|a| - 1] == a[2 * (HistoryLayers(e) - 1) + 1];
    } else {
      assert effect.appended == [];
    }
  }

  /** A turn without a chat id behaves exactly like a turn in the user's chat with the
      largest id (and like a turn in chat `None` for a user without summaries). */
  lemma TurnWithoutChatIdUsesMostRecent(base: seq<PromptMessage>, rows: seq<SummaryRow>,
                                        turns: map<string, seq<ChatMessage>>, tools: seq<Tool>,
                                        executor: Option<Executor>,
                                        message: string, fileContent: Option<seq<bv8>>, mimeType: Option<string>,
                                        withHistory: bool, userId: string, turnId: Option<int>, c: Collaborators)
    ensures TurnOutcome(base, rows, turns, tools, executor, message, fileContent, mimeType, withHistory, userId, None, turnId, c)
         == TurnOutcome(base, rows, turns, tools, executor, message, fileContent, mimeType, withHistory, userId,
                        MaxChatId(rows, userId), turnId, c)
  {
    MostRecentIsMax(rows, userId);
  }

  // ---------------------------------------------------------------------------
  // perform_final_processes
  // ---------------------------------------------------------------------------

  /** The two collections finalisation writes. */
  datatype StoreState = StoreState(rows: seq<SummaryRow>, turns: map<string, seq<ChatMessage>>)

  /** What finalisation returns, and the collections after it. */
  datatype Finalization = Finalization(outcome: Fallible<()>, state: StoreState)

  /** The message `int(None)` raises. */
  const IntOfNoneError: string := "int() argument must be a string, a bytes-like object or a real number, not 'NoneType'"

  /** Finalisation of a chat: mood first, then summary, then one update of the chat's row.
      With `echo`, the summary memory is bound to the session's history and writes each
      folded pair back into it, as `perform_final_processes` does; without, the history is
      only read. An exception stops the steps after it; a missing chat id raises only at
      the update, after the history has been written. */
  function FinalizedWith(s: StoreState, userId: string, chatId: Option<int>, c: Collaborators, echo: bool)
    : (f: Finalization)
    ensures f.state.rows != s.rows ==> f.outcome.Ok?
  {
    var sessionId := SessionId(userId, chatId);
    var history := SessionHistory(s.turns, sessionId);
    match c.moodReply(history)
    case Raised(e) => Finalization(Raised(e), s)
    case Ok(reply) =>
      var turns := if echo then AppendTurns(s.turns, sessionId, HistoryEcho(history, c.condense)) else s.turns;
      match HistorySummary(history, c.condense)
      case Raised(e) => Finalization(Raised(e), StoreState(s.rows, turns))
      case Ok(summary) =>
        if chatId.None? then Finalization(Raised(IntOfNoneError), StoreState(s.rows, turns))
        else Finalization(Ok(()), StoreState(SetMoodAndSummary(s.rows, userId, chatId.value, NormalizeMood(reply), summary), turns))
  }

  /** `perform_final_processes` as written. */
  function Finalized(s: StoreState, userId: string, chatId: Option<int>, c: Collaborators): (f: Finalization)
    ensures var g := FinalizedWithoutEcho(s, userId, chatId, c);
      f.outcome == g.outcome && f.state.rows == g.state.rows
  {
    FinalizedWith(s, userId, chatId, c, true)
  }

  /** Finalisation with a summary memory that does not write into the session's history. */
  function FinalizedWithoutEcho(s: StoreState, userId: string, chatId: Option<int>, c: Collaborators): (f: Finalization)
    ensures f.state.turns == s.turns
    ensures f.state.rows != s.rows ==> f.outcome.Ok?
  {
    FinalizedWith(s, userId, chatId, c, false)
  }

  /** Finalisation computes the mood first: when the mood call fails nothing is written
      and its exception is the one reported. Otherwise the folded pairs are written back to
      the history whatever follows; on success the chat's row carries the normalised mood
      and the history's summary together and no other row changes; without a chat id no
      row is written. */
  lemma FinalizeWritesBoth(s: StoreState, userId: string, chatId: Option<int>, c: Collaborators)
    ensures var history := SessionHistory(s.turns, SessionId(userId, chatId));
      c.moodReply(history).Raised? ==> Finalized(s, userId, chatId, c) == Finalization(Raised(c.moodReply(history).error), s)
    ensures var sessionId := SessionId(userId, chatId);
      var history := SessionHistory(s.turns, sessionId);
      c.moodReply(history).Ok? ==>
        Finalized(s, userId, chatId, c).state.turns == AppendTurns(s.turns, sessionId, HistoryEcho(history, c.condense))
    ensures chatId.None? ==> Finalized(s, userId, chatId, c).outcome.Raised? && Finalized(s, userId, chatId, c).state.rows == s.rows
    ensures var history := SessionHistory(s.turns, SessionId(userId, chatId));
      var f := Finalized(s, userId, chatId, c);
      f.outcome.Ok? ==>
        && chatId.Some? && c.moodReply(history).Ok? && HistorySummary(history, c.condense).Ok?
        && var i := FirstMatch(s.rows, userId, chatId.value);
        && |f.state.rows| == |s.rows|
        && (forall j :: 0 <= j < |s.rows| && Some(j) != i ==> f.state.rows[j] == s.rows[j])
        && (i.Some? ==>
              && f.state.rows[i.value].perceivedMood == NormalizeMood(c.moodReply(history).value)
              && f.state.rows[i.value].summaryText == Some(HistorySummary(history, c.condense).value))
  {
  }

  /** When the mood call and every save succeed for a chat id, finalisation succeeds and
      writes the folded pairs back to the history. */
  lemma FinalizedWhenAllSucceed(s: StoreState, userId: string, chatId: int, c: Collaborators)
    requires var history := SessionHistory(s.turns, SessionId(userId, Some(chatId)));
      c.moodReply(history).Ok? && HistorySummary(history, c.condense).Ok?
    ensures var sessionId := SessionId(userId, Some(chatId));
      var f := Finalized(s, userId, Some(chatId), c);
      f.outcome == Ok(()) && f.state.turns == AppendTurns(s.turns, sessionId, HistoryEcho(SessionHistory(s.turns, sessionId), c.condense))
  {
  }

  /** As written, finalising a chat twice does not leave what finalising once left: the
      first run writes its one (human, reply) pair back into the history, so the second
      run reads, summarises and writes back two. */
  lemma FinalizeTwiceEchoes(userId: string, chatId: int, h: string, a: string, c: Collaborators)
    requires var pair := [ChatMessage(Human, h), ChatMessage(Ai, a)];
      c.moodReply(pair).Ok? && c.moodReply(pair + pair).Ok?
    requires c.condense(h, a, "").Ok? && c.condense(h, a, c.condense(h, a, "").value).Ok?
    ensures var sessionId := SessionId(userId, Some(chatId));
      var pair := [ChatMessage(Human, h), ChatMessage(Ai, a)];
      var once := Finalized(StoreState([], map[sessionId := pair]), userId, Some(chatId), c);
      var twice := Finalized(once.state, userId, Some(chatId), c);
      && once.outcome.Ok? && twice.outcome.Ok?
      && SessionHistory(once.state.turns, sessionId) == pair + pair
      && SessionHistory(twice.state.turns, sessionId) == pair + pair + pair + pair
      && twice.state != once.state
  {
    var sessionId := SessionId(userId, Some(chatId));
    var pair := [ChatMessage(Human, h), ChatMessage(Ai, a)];
    var start := StoreState([], map[sessionId := pair]);
    assert SessionHistory(start.turns, sessionId) == pair;
    EchoOfOnePair(h, a, c.condense);
    FinalizedWhenAllSucceed(start, userId, chatId, c);
    var once := Finalized(start, userId, Some(chatId), c);
    assert SessionHistory(once.state.turns, sessionId) == pair + pair;
    EchoOfTwoPairs(h, a, c.condense);
    FinalizedWhenAllSucceed(once.state, userId, chatId, c);
    var twice := Finalized(once.state, userId, Some(chatId), c);
    assert |SessionHistory(twice.state.turns, sessionId)| == 8;
  }

  /** A (human, reply) pair whose save succeeds is written back whole. */
  lemma EchoOfOnePair(h: string, a: string, condense: (string, string, string) -> Fallible<string>)
    requires condense(h, a, "").Ok?
    ensures var pair := [ChatMessage(Human, h), ChatMessage(Ai, a)];
      HistorySummary(pair, condense).Ok? && HistoryEcho(pair, condense) == pair
  {
    var pair := [ChatMessage(Human, h), ChatMessage(Ai, a)];
    var one := [(h, a)];
    assert one[..0] == [];
    assert FoldedIndicesBelow(pair, 1) == [0];
    assert PositionsBelow(pair, 2) == [0];
    assert SavedContexts(pair, PositionsBelow(pair, 2)) == one;
    assert Condense(one, condense) == condense(h, a, "");
    assert Echoed(one, condense) == pair;
    assert HistorySummary(pair, condense) == Condense(one, condense);
    assert HistoryEcho(pair, condense) == Echoed(one, condense);
  }

  /** The same pair twice, both saves succeeding, is written back whole. */
  lemma EchoOfTwoPairs(h: string, a: string, condense: (string, string, string) -> Fallible<string>)
    requires condense(h, a, "").Ok? && condense(h, a, condense(h, a, "").value).Ok?
    ensures var pair := [ChatMessage(Human, h), ChatMessage(Ai, a)];
      HistorySummary(pair + pair, condense).Ok? && HistoryEcho(pair + pair, condense) == pair + pair
  {
    var pair := [ChatMessage(Human, h), ChatMessage(Ai, a)];
    var ms := pair + pair;
    var one := [(h, a)];
    assert one[..0] == [];
    assert Echoed(one, condense) == pair;
    assert FoldedIndicesBelow(ms, 1) == [0];
    assert FoldedIndicesBelow(ms, 3) == [0, 2];
    assert PositionsBelow(ms, 4) == [0, 2];
    assert SavedContexts(ms, PositionsBelow(ms, 4)) == one + one;
    assert (one + one)[..1] == one;
    assert Condense(one, condense) == condense(h, a, "");
    assert Condense(one + one, condense) == condense(h, a, condense(h, a, "").value);
    assert Echoed(one + one, condense) == Echoed(one, condense) + pair;
    assert HistorySummary(ms, condense) == Condense(one + one, condense);
    assert HistoryEcho(ms, condense) == Echoed(one + one, condense);
  }

  /** Without the write-back, finalising a chat twice with no turn in between leaves what
      finalising once left. */
  lemma FinalizeIdempotentWithoutEcho(s: StoreState, userId: string, chatId: Option<int>, c: Collaborators)
    requires FinalizedWithoutEcho(s, userId, chatId, c).outcome.Ok?
    ensures var once := FinalizedWithoutEcho(s, userId, chatId, c);
      FinalizedWithoutEcho(once.state, userId, chatId, c) == Finalization(Ok(()), once.state)
  {
    var history := SessionHistory(s.turns, SessionId(userId, chatId));
    var mood := NormalizeMood(c.moodReply(history).value);
    var summary := HistorySummary(history, c.condense).value;
    SetMoodAndSummaryIdempotent(s.rows, userId, chatId.value, mood, summary);
  }

  // ---------------------------------------------------------------------------
  // get_initial_greeting
  // ---------------------------------------------------------------------------

  /** The language named in the greeting instructions: the profile's `preferredLanguage`,
      `en` when there is no profile or no such key. */
  function GreetingLanguage(profile: Option<UserRecord>): (r: string)
    ensures profile.None? || profile.value.preferredLanguage.None? ==> r == "en"
    ensures r == "" ==> profile == Some(UserRecord(Some("")))
    ensures profile.Some? && r != "" ==> r == SpeechLanguage(profile.value)
  {
    if profile.Some? && profile.value.preferredLanguage.Some? then profile.value.preferredLanguage.value else "en"
  }

  const LanguageLead: string := "\n\n**Language Enforcement:** Respond exclusively in "

  /** What follows the language: the second mention is the literal text
      `{preferred_language}`, since only the first piece of the concatenated string is
      an f-string. */
  const LanguageTail: string :=
    " using the correct script. "
    + "Do not use any other language, even if the user writes in another language. "
    + "All responses must be in {preferred_language} without exception."

  /** The language instruction of a greeting: the user's language is filled in once, and
      the instruction ends with the unfilled placeholder. */
  function LanguageInstruction(language: string): (r: string)
    ensures LanguageLead + language <= r
    ensures |r| == |LanguageLead| + |language| + |LanguageTail|
    ensures r[|r| - |LanguageTail|..] == LanguageTail
  {
    LanguageLead + language + LanguageTail
  }

  const Introduction: string := @"
    This is your first session with the user. Be polite and introduce yourself in a warm, empathetic, and inviting manner.

    In this session, aim to understand the user's health and wellness objectives. Ask open-ended questions to uncover any key concerns or goals—whether they pertain to nutrition, mental well-being, fitness, or other aspects of a healthy lifestyle.

    **Important Disclaimer:**
    - You are here to provide general health and wellness advice, not to replace professional medical care. Encourage the user to seek a qualified healthcare provider for medical diagnosis and treatment where needed.

    **Language Enforcement:**
    - The user’s preferred language is {preferred_language}.
    - You must respond exclusively in {preferred_language}, regardless of the user’s initial greeting language.
    - For example, if the user’s profile says “zh” for Chinese, all messages should be in Chinese. If the user’s profile says “fr,” respond in French, etc.
    - If you genuinely cannot continue in {preferred_language}, apologize in {preferred_language} and ask for clarification.


    Explain that you are here to support their wellness journey by offering evidence-based tips, mental health encouragement, lifestyle recommendations, and motivational guidance. Ensure the user feels welcomed, understood, and optimistic about improving their overall well-being.
    "

  /** The text a greeting appends to the system message: the language instruction, the
      two most recent summaries when their joined text is not empty, and the introduction
      for a user without a journey. */
  function GreetingAppendix(rows: seq<SummaryRow>, journeys: seq<JourneyRow>, userId: string,
                            profile: Option<UserRecord>): (r: string)
    ensures LanguageInstruction(GreetingLanguage(profile)) <= r
    ensures RecentSummariesText(rows, userId) == "" && HasJourney(journeys, userId) ==>
              r == LanguageInstruction(GreetingLanguage(profile))
  {
    var recent := RecentSummariesText(rows, userId);
    var lang := LanguageInstruction(GreetingLanguage(profile));
    var summaries := if recent != "" then "\nPrevious Summaries:\n" + recent else "";
    var intro := if HasJourney(journeys, userId) then "" else Introduction;
    LeadingPart(lang, summaries, intro);
    lang + summaries + intro
  }

  /** Proof helper: the first of three parts is a prefix of their concatenation, and is
      all of it when the other two are empty. */
  lemma LeadingPart(a: string, b: string, c: string)
    ensures a <= a + b + c
    ensures b == "" && c == "" ==> a + b + c == a
  {
  }

  /** Proof helper: the appendix as its three parts, so that method proofs need not
      unfold the long introduction text. */
  lemma AppendixParts(rows: seq<SummaryRow>, journeys: seq<JourneyRow>, userId: string,
                      profile: Option<UserRecord>)
    ensures var recent := RecentSummariesText(rows, userId);
      GreetingAppendix(rows, journeys, userId, profile)
      == LanguageInstruction(GreetingLanguage(profile))
         + (if recent != "" then "\nPrevious Summaries:\n" + recent else "")
         + (if HasJourney(journeys, userId) then "" else Introduction)
  {
  }

  /** A greeting introduces the agent only to a user without a journey: that user's text is
      the returning user's text plus the introduction, and after the greeting's journey
      insert the user is a returning user. */
  lemma IntroductionOnlyForNewUsers(rows: seq<SummaryRow>, journeys: seq<JourneyRow>, userId: string,
                                    profile: Option<UserRecord>, lastUpdated: string)
    ensures HasJourney(journeys + [NewJourneyRow(userId, lastUpdated)], userId)
    ensures !HasJourney(journeys, userId) ==>
      GreetingAppendix(rows, journeys, userId, profile)
      == GreetingAppendix(rows, journeys + [NewJourneyRow(userId, lastUpdated)], userId, profile) + Introduction
  {
    var joined := journeys + [NewJourneyRow(userId, lastUpdated)];
    assert joined[|journeys|] == NewJourneyRow(userId, lastUpdated);
    AppendixParts(rows, journeys, userId, profile);
    AppendixParts(rows, joined, userId, profile);
    var recent := RecentSummariesText(rows, userId);
    AppendEmpty(LanguageInstruction(GreetingLanguage(profile))
                + (if recent != "" then "\nPrevious Summaries:\n" + recent else ""), Introduction);
  }

  /** Proof helper: an empty middle part can be dropped. */
  lemma AppendEmpty(a: string, b: string)
    ensures a + b == (a + "") + b
  {
  }

  /** The summary row a new chat starts with: empty mood, empty summary, no concerns. */
  function NewSummaryRow(userId: string, chatId: int, desiredRole: string): SummaryRow
  {
    SummaryRow(userId, chatId, desiredRole, "", Some(""), [])
  }

  function NewJourneyRow(userId: string, lastUpdated: string): JourneyRow
  {
    JourneyRow(userId, [], [], lastUpdated, [], [])
  }

  /** The chat a greeting starts is the one a later finalisation of that chat fills, as long
      as no earlier row of the user carries the same timestamp. */
  lemma GreetingRowIsFinalized(rows: seq<SummaryRow>, turns: map<string, seq<ChatMessage>>, userId: string,
                               now: int, desiredRole: string, c: Collaborators)
    requires forall x :: x in rows ==> !Matches(x, userId, now)
    requires Finalized(StoreState(rows + [NewSummaryRow(userId, now, desiredRole)], turns), userId, Some(now), c).outcome.Ok?
    ensures var history := SessionHistory(turns, SessionId(userId, Some(now)));
      Finalized(StoreState(rows + [NewSummaryRow(userId, now, desiredRole)], turns), userId, Some(now), c).state.rows
      == rows + [SummaryRow(userId, now, desiredRole, NormalizeMood(c.moodReply(history).value),
                            Some(HistorySummary(history, c.condense).value), [])]
  {
    var history := SessionHistory(turns, SessionId(userId, Some(now)));
    UpdateHitsInsertedRow(rows, NewSummaryRow(userId, now, desiredRole),
                          NormalizeMood(c.moodReply(history).value), HistorySummary(history, c.condense).value);
  }

  /** Proof helper: appending three pieces one after another appends their concatenation,
      and keeps every prefix of the original text. */
  lemma Grows(start: string, a: string, b: string, c: string)
    ensures start + a + b + c == start + (a + b + c)
    ensures start <= start + (a + b + c)
  {
  }

  // ---------------------------------------------------------------------------
  // The agent
  // ---------------------------------------------------------------------------

  class HealthAIAgent {
    const desiredRole: string
    /** The system text with the role filled in, as it stood when the prompt list was built. */
    const formattedSystemMessage: string
    const tools: seq<Tool>
    /** `system_message.content`: only ever extended. */
    var systemMessage: string
    var basePromptMessages: seq<PromptMessage>
    var agentExecutor: Option<Executor>

    /** The prompt list holds the system text as it stood at construction. */
    ghost predicate Valid()
      reads this
    {
      basePromptMessages == BasePrompt(formattedSystemMessage)
    }

    constructor (formattedSystemMessage: string, tools: seq<Tool>, desiredRole: string)
      ensures Valid()
      ensures this.formattedSystemMessage == formattedSystemMessage && this.tools == tools
      ensures this.desiredRole == desiredRole
      ensures systemMessage == formattedSystemMessage && agentExecutor == None
    {
      this.desiredRole := desiredRole;
      this.formattedSystemMessage := formattedSystemMessage;
      this.tools := tools;
      systemMessage := formattedSystemMessage;
      basePromptMessages := BasePrompt(formattedSystemMessage);
      agentExecutor := None;
    }

    /** `_initialize_agent_executor`: builds the executor on the first call only. */
    method InitializeAgentExecutor()
      modifies this`agentExecutor
      ensures agentExecutor.Some?
      ensures old(agentExecutor).Some? ==> agentExecutor == old(agentExecutor)
      ensures old(agentExecutor).None? ==> agentExecutor == Some(FunctionsAgent(tools))
    {
      if agentExecutor.Some? {
        return;
      }
      agentExecutor := Some(FunctionsAgent(tools));
    }

    /** `get_tool_by_name`: the first tool with the name, `None` when there is none. */
    method GetToolByName(toolName: string) returns (tool: Option<Tool>)
      ensures tool == ToolNamed(tools, toolName)
      ensures tool.None? <==> forall i :: 0 <= i < |tools| ==> tools[i].name != toolName
      ensures tool.Some? ==> tool.value.name == toolName && tool.value in tools
    {
      var i := 0;
      while i < |tools|
        invariant 0 <= i <= |tools|
        invariant forall j :: 0 <= j < i ==> tools[j].name != toolName
      {
        if tools[i].name == toolName {
          return Some(tools[i]);
        }
        i := i + 1;
      }
      return None;
    }

    /** `run`: one turn. The prompt list is a copy of the base list, so the base list and the
        system text stay as they were. Once the prompt is rendered, the executor is built
        when missing and, on a turn with history, replaced by itself wrapped in history;
        a turn with history reads the session's messages and, when the executor returns,
        appends to them. */
    method Run(db: Database, message: string, fileContent: Option<seq<bv8>>, mimeType: Option<string>,
               withHistory: bool, userId: string, chatId: Option<int>, turnId: Option<int>, c: Collaborators)
      returns (result: Fallible<TurnResult>)
      requires Valid()
      modifies this`agentExecutor, db
      ensures Valid()
      ensures var effect := TurnOutcome(basePromptMessages, old(db.chatSummaries), old(db.chatTurns), tools,
                                        old(agentExecutor), message, fileContent, mimeType, withHistory,
                                        userId, chatId, turnId, c);
        && result == effect.result
        && db.chatTurns == AppendTurns(old(db.chatTurns),
                                       SessionId(userId, ResolveChatId(chatId, old(db.chatSummaries), userId)),
                                       effect.appended)
      ensures db.chatSummaries == old(db.chatSummaries) && db.userJourneys == old(db.userJourneys)
      ensures var p := RenderedPrompt(basePromptMessages, old(db.chatSummaries), message, fileContent, mimeType,
                                      withHistory, userId, ResolveChatId(chatId, old(db.chatSummaries), userId), c);
        && (p.Raised? ==> agentExecutor == old(agentExecutor))
        && (p.Ok? ==> agentExecutor == Some(ExecutorForTurn(old(agentExecutor), tools, withHistory)))
    {
      var resolved := ResolveChatId(chatId, db.chatSummaries, userId);
      var sessionId := SessionId(userId, resolved);
      ghost var effect := TurnOutcome(basePromptMessages, db.chatSummaries, db.chatTurns, tools, agentExecutor,
                                      message, fileContent, mimeType, withHistory, userId, chatId, turnId, c);
      ghost var executorBefore := agentExecutor;
      var extracted := ExtractedText(fileContent, mimeType, c.extractText);
      if extracted.Raised? {
        assert effect == TurnEffect(Raised(extracted.error), []);
        return Raised(extracted.error);
      }
      var request := AssembleRequest(basePromptMessages, db.chatSummaries, message, userId,
                                     resolved, extracted.value, withHistory);
      var rendered := c.render(request);
      assert RenderedPrompt(basePromptMessages, db.chatSummaries, message, fileContent, mimeType,
                            withHistory, userId, resolved, c) == rendered;
      if rendered.Raised? {
        assert effect == TurnEffect(Raised(rendered.error), []);
        return Raised(rendered.error);
      }
      InitializeAgentExecutor();
      if withHistory {
        agentExecutor := Some(WithHistory(agentExecutor.value));
      }
      assert agentExecutor.value == ExecutorForTurn(executorBefore, tools, withHistory);
      var history := if withHistory then db.SessionMessages(sessionId) else [];
      var reply := c.execute(agentExecutor.value, withHistory, rendered.value, history);
      if reply.Raised? {
        assert effect == TurnEffect(Raised(reply.error), []);
        return Raised(reply.error);
      }
      var appended := if withHistory then HistoryAppend(agentExecutor.value, rendered.value, reply.value) else [];
      if withHistory {
        db.AppendMessages(sessionId, appended);
      }
      var memeTool := GetToolByName(MemeToolName);
      result := Enrich(reply.value, userId, resolved, turnId, memeTool, c);
      assert effect == TurnEffect(result, appended);
    }

    /** `perform_final_processes`: mood, then summary, then one update of the chat's row.
        The summary writes the folded pairs back into the session's history; an exception
        from either call propagates before the row is written, and so does the failed
        conversion of a missing chat id. */
    method PerformFinalProcesses(db: Database, userId: string, chatId: Option<int>, c: Collaborators)
      returns (outcome: Fallible<()>)
      modifies db
      ensures var f := Finalized(StoreState(old(db.chatSummaries), old(db.chatTurns)), userId, chatId, c);
        outcome == f.outcome && db.chatSummaries == f.state.rows && db.chatTurns == f.state.turns
      ensures db.userJourneys == old(db.userJourneys)
    {
      var sessionId := SessionId(userId, chatId);
      var history := db.SessionMessages(sessionId);
      var reply := c.moodReply(history);
      if reply.Raised? {
        return Raised(reply.error);
      }
      var mood := NormalizeMood(reply.value);
      var summary := SummaryFromHistory(db, sessionId, c.condense);
      if summary.Raised? {
        return Raised(summary.error);
      }
      if chatId.None? {
        return Raised(IntOfNoneError);
      }
      db.UpdateMoodAndSummary(userId, chatId.value, mood, summary.value);
      return Ok(());
    }

    /** The system-text part of `get_initial_greeting`: the language instruction, then the
        two most recent summaries when there are any, then the introduction for a user
        without a journey. The text only grows. */
    method ExtendSystemMessage(rows: seq<SummaryRow>, journeys: seq<JourneyRow>, userId: string,
                               profile: Option<UserRecord>)
      modifies this`systemMessage
      ensures systemMessage == old(systemMessage) + GreetingAppendix(rows, journeys, userId, profile)
      ensures old(systemMessage) <= systemMessage
    {
      var language := LanguageInstruction(GreetingLanguage(profile));
      var recent := RecentSummariesText(rows, userId);
      var hasJourney := HasJourney(journeys, userId);
      ghost var start := systemMessage;
      ghost var summariesPart := if recent != "" then "\nPrevious Summaries:\n" + recent else "";
      ghost var introPart := if hasJourney then "" else Introduction;
      AppendixParts(rows, journeys, userId, profile);

      systemMessage := systemMessage + language;
      if recent != "" {
        systemMessage := systemMessage + ("\nPrevious Summaries:\n" + recent);
      } else {
        assert systemMessage == systemMessage + summariesPart;
      }
      if !hasJourney {
        systemMessage := systemMessage + Introduction;
      } else {
        assert systemMessage == systemMessage + introPart;
      }
      Grows(start, language, summariesPart, introPart);
    }

    /** `get_initial_greeting`: looks up the profile, extends the system text, creates the
        chat's summary row (and the journey row of a new user), then runs turn 0 with an
        empty message and history. A failed profile lookup changes nothing. */
    method GetInitialGreeting(db: Database, userId: string, now: int, nowIso: string, c: Collaborators)
      returns (result: Fallible<Greeting>)
      requires Valid()
      modifies this`systemMessage, this`agentExecutor, db
      ensures Valid()
      ensures old(systemMessage) <= systemMessage
      ensures c.userProfile(userId).Raised? ==>
        && result == Raised(c.userProfile(userId).error)
        && systemMessage == old(systemMessage) && agentExecutor == old(agentExecutor)
        && db.chatSummaries == old(db.chatSummaries) && db.userJourneys == old(db.userJourneys)
        && db.chatTurns == old(db.chatTurns)
      ensures c.userProfile(userId).Ok? ==>
        && systemMessage == old(systemMessage) + GreetingAppendix(old(db.chatSummaries), old(db.userJourneys),
                                                                 userId, c.userProfile(userId).value)
        && db.chatSummaries == old(db.chatSummaries) + [NewSummaryRow(userId, now, desiredRole)]
        && db.userJourneys == (if HasJourney(old(db.userJourneys), userId) then old(db.userJourneys)
                               else old(db.userJourneys) + [NewJourneyRow(userId, nowIso)])
        && HasJourney(db.userJourneys, userId)
        && var effect := TurnOutcome(basePromptMessages, db.chatSummaries, old(db.chatTurns), tools, old(agentExecutor),
                                     "", None, None, true, userId, Some(now), Some(0), c);
           && db.chatTurns == AppendTurns(old(db.chatTurns), SessionId(userId, Some(now)), effect.appended)
           && (match effect.result
               case Raised(e) => result == Raised(e)
               case Ok(turn) => result == Ok(Greeting(turn, now)))
           && var p := RenderedPrompt(basePromptMessages, db.chatSummaries, "", None, None, true, userId, Some(now), c);
              && (p.Raised? ==> agentExecutor == old(agentExecutor))
              && (p.Ok? ==> agentExecutor == Some(ExecutorForTurn(old(agentExecutor), tools, true)))
    {
      var profile := c.userProfile(userId);
      if profile.Raised? {
        return Raised(profile.error);
      }
      ExtendSystemMessage(db.chatSummaries, db.userJourneys, userId, profile.value);

      var chatId := now;
      var row := NewSummaryRow(userId, chatId, desiredRole);
      db.InsertSummary(row);
      assert row in db.chatSummaries;

      if !HasJourney(db.userJourneys, userId) {
        db.InsertJourney(NewJourneyRow(userId, nowIso));
      }

      assert db.chatTurns == old(db.chatTurns) && agentExecutor == old(agentExecutor);
      var response := Run(db, "", None, None, true, userId, Some(chatId), Some(0), c);
      match response
      case Raised(e) =>
        return Raised(e);
      case Ok(turn) =>
        return Ok(Greeting(turn, chatId));
    }
  }
}

=== FILE: conversation.dfy ===
/** Chat messages as the session history stores them, and the key of a session's history. */
module Conversation {
  import opened Wrappers
  import Text

  /** The message classes the history holds; only `Human` is told apart by the summariser. */
  datatype MessageKind = Human | Ai | System | Tool

  datatype ChatMessage = ChatMessage(kind: MessageKind, content: string)

  /** How an optional chat id prints in an f-string: the decimal number, or `None`. */
  function ChatIdText(chatId: Option<int>): (r: string)
    ensures chatId.None? <==> r == "None"
    ensures |r| >= 1
  {
    match chatId
    case None => "None"
    case Some(c) => Text.IntToString(c)
  }

  /** Distinct optional chat ids print differently. */
  lemma ChatIdTextInjective(a: Option<int>, b: Option<int>)
    requires ChatIdText(a) == ChatIdText(b)
    ensures a == b
  {
    if a.Some? && b.Some? {
      Text.IntToStringInjective(a.value, b.value);
    }
  }

  /** The key of a session's message history, `f"{user_id}-{chat_id}"`. */
  function SessionId(userId: string, chatId: Option<int>): (r: string)
    ensures |r| == |userId| + 1 + |ChatIdText(chatId)|
    ensures r[..|userId|] == userId && r[|userId|] == '-'
    ensures r[|userId| + 1..] == ChatIdText(chatId)
  {
    userId + "-" + ChatIdText(chatId)
  }

  /** For one user, the session key tells chats apart. */
  lemma SessionIdInjective(userId: string, a: Option<int>, b: Option<int>)
    requires SessionId(userId, a) == SessionId(userId, b)
    ensures a == b
  {
    assert ChatIdText(a) == SessionId(userId, a)[|userId| + 1..];
    ChatIdTextInjective(a, b);
  }
}

=== FILE: enrichment.dfy ===
/** Post-processing of model output: the mood label, the meme topic, and the name and
    download URL of the synthesised audio. */
module Enrichment {
  import opened Wrappers
  import opened Text
  import opened Conversation

  // ---------------------------------------------------------------------------
  // get_user_mood: normalisation of the model's answer
  // ---------------------------------------------------------------------------

  /** The mood recorded for a model answer: the answer stripped of surrounding whitespace,
      with the literal `None` read as `neutral`. Case is kept. */
  function NormalizeMood(reply: string): (mood: string)
    ensures Stripped(mood)
    ensures mood != "None"
    ensures Trim(reply) != "None" ==> mood == Trim(reply)
    ensures Trim(reply) == "None" ==> mood == "neutral"
  {
    var m := Trim(reply);
    if m == "None" then "neutral" else m
  }

  /** Normalising a recorded mood again changes nothing. */
  lemma NormalizeMoodIdempotent(reply: string)
    ensures NormalizeMood(NormalizeMood(reply)) == NormalizeMood(reply)
  {
    var m := NormalizeMood(reply);
    StrippedIsFixed(m);
    assert Trim(m) != "None";
  }

  /** `None` with any whitespace around it becomes `neutral`. */
  lemma NoneBecomesNeutral(lead: string, tail: string)
    requires AllSpace(lead) && AllSpace(tail)
    ensures NormalizeMood(lead + "None" + tail) == "neutral"
  {
    assert Stripped("None");
    TrimUnique(lead + "None" + tail, lead, "None", tail);
  }

  /** A capitalised answer stays capitalised: the mood is stripped, not lower-cased. */
  lemma MoodKeepsCase()
    ensures NormalizeMood(" Happy\n") == "Happy"
  {
    assert " Happy\n" == " " + "Happy" + "\n";
    TrimUnique(" Happy\n", " ", "Happy", "\n");
  }

  /** A blank answer, empty or all whitespace, gives an empty mood. */
  lemma BlankAnswerGivesEmptyMood(reply: string)
    requires AllSpace(reply)
    ensures NormalizeMood(reply) == ""
  {
    assert reply == reply + [] + [];
    TrimUnique(reply, reply, [], []);
  }

  // ---------------------------------------------------------------------------
  // determine_meme_topic
  // ---------------------------------------------------------------------------

  const InitialTopicHeader: string :=
    "Analyze the following AI response and pick the best welcoming meme topic from the list:\n"
    + "welcome, hello, introduction, greeting.\n\n"
    + "AI response:\n"
  const InitialTopicFooter: string := "\n\nReturn only the topic."
  const OpenTopicHeader: string :=
    "Analyze the AI response and determine the best meme topic. Return only the topic.\n\n"

  /** Whether a turn is the first of its chat: `turn_id == 0`, false for a missing turn id. */
  function IsInitial(turnId: Option<int>): bool
  {
    turnId == Some(0)
  }

  /** The prompt that asks the model for a meme topic: the greeting vocabulary on a first
      turn, an open topic otherwise. */
  function MemeTopicPrompt(aiResponse: string, isInitial: bool): (r: string)
    ensures isInitial ==> |r| == |InitialTopicHeader| + |aiResponse| + |InitialTopicFooter|
                          && r[..|InitialTopicHeader|] == InitialTopicHeader
                          && r[|r| - |InitialTopicFooter|..] == InitialTopicFooter
    ensures !isInitial ==> |r| == |OpenTopicHeader| + |aiResponse|
                           && r[..|OpenTopicHeader|] == OpenTopicHeader
                           && r[|OpenTopicHeader|..] == aiResponse
  {
    if isInitial then InitialTopicHeader + aiResponse + InitialTopicFooter
    else OpenTopicHeader + aiResponse
  }

  /** Both prompts quote the response in full, at a fixed place, and the two kinds of
      prompt never coincide, so the vocabulary is offered exactly on first turns. */
  lemma MemeTopicPromptQuotes(aiResponse: string, isInitial: bool)
    ensures var p := MemeTopicPrompt(aiResponse, isInitial);
      var h := if isInitial then |InitialTopicHeader| else |OpenTopicHeader|;
      && |p| >= h + |aiResponse|
      && p[h..h + |aiResponse|] == aiResponse
    ensures MemeTopicPrompt(aiResponse, true) != MemeTopicPrompt(aiResponse, false)
  {
    var a := MemeTopicPrompt(aiResponse, true);
    var b := MemeTopicPrompt(aiResponse, false);
    assert |a| == |InitialTopicHeader| + |aiResponse| + |InitialTopicFooter|;
    assert |b| == |OpenTopicHeader| + |aiResponse|;
    assert |InitialTopicHeader| + |InitialTopicFooter| != |OpenTopicHeader|;
    if isInitial {
      assert MemeTopicPrompt(aiResponse, isInitial)[|InitialTopicHeader|..|InitialTopicHeader| + |aiResponse|] == aiResponse;
    } else {
      assert MemeTopicPrompt(aiResponse, isInitial)[|OpenTopicHeader|..|OpenTopicHeader| + |aiResponse|] == aiResponse;
    }
  }

  const FallbackTopic: string := "funny"

  /** The meme topic: the model's answer stripped and lower-cased, or `funny` when the
      model call raises. */
  function DetermineMemeTopic(aiResponse: string, isInitial: bool,
                              invoke: string -> Fallible<string>): (topic: string)
    ensures invoke(MemeTopicPrompt(aiResponse, isInitial)).Raised? ==> topic == FallbackTopic
    ensures invoke(MemeTopicPrompt(aiResponse, isInitial)).Ok? ==>
      |topic| <= |invoke(MemeTopicPrompt(aiResponse, isInitial)).value|
    ensures invoke(MemeTopicPrompt(aiResponse, isInitial)).Ok? ==>
      topic == Lower(Trim(invoke(MemeTopicPrompt(aiResponse, isInitial)).value))
  {
    match invoke(MemeTopicPrompt(aiResponse, isInitial))
    case Raised(_) => FallbackTopic
    case Ok(answer) => Lower(Trim(answer))
  }

  /** Every topic, the fallback included, is already normalised: no surrounding
      whitespace, no upper-case letter, and normalising it again changes nothing. */
  lemma MemeTopicNormalized(aiResponse: string, isInitial: bool, invoke: string -> Fallible<string>)
    ensures var topic := DetermineMemeTopic(aiResponse, isInitial, invoke);
      && Stripped(topic)
      && (forall i :: 0 <= i < |topic| ==> !('A' <= topic[i] <= 'Z'))
      && Lower(Trim(topic)) == topic
  {
    var topic := DetermineMemeTopic(aiResponse, isInitial, invoke);
    match invoke(MemeTopicPrompt(aiResponse, isInitial))
    case Raised(_) =>
      assert topic == "funny";
      TrimUnique(topic, [], topic, []);
      assert Lower(topic) == topic;
    case Ok(answer) =>
      var t := Trim(answer);
      StrippedIsFixed(t);
      TrimAfterLower(t);
      LowerIdempotent(t);
  }

  // ---------------------------------------------------------------------------
  // convert_text_to_speech
  // ---------------------------------------------------------------------------

  /** The user record looked up before synthesis. */
  datatype UserRecord = UserRecord(preferredLanguage: Option<string>)

  /** `user.preferredLanguage or "en"`: a missing or empty language falls back to English. */
  function SpeechLanguage(user: UserRecord): (lang: string)
    ensures lang != ""
    ensures user.preferredLanguage.Some? && user.preferredLanguage.value != "" ==> lang == user.preferredLanguage.value
  {
    if user.preferredLanguage.Some? && user.preferredLanguage.value != "" then user.preferredLanguage.value else "en"
  }

  const DefaultBackendBaseUrl: string := "http://localhost:8000"
  const DownloadPath: string := "/ai_mentor/download_audio/"

  /** `f"{user_id}_{chat_id}_{turn_id}.wav"`. */
  function AudioFileName(userId: string, chatId: Option<int>, turnId: Option<int>): (r: string)
    ensures |r| >= |userId| + 1 + 4
    ensures r[..|userId| + 1] == userId + "_"
    ensures r[|r| - 4..] == ".wav"
  {
    userId + "_" + ChatIdText(chatId) + "_" + ChatIdText(turnId) + ".wav"
  }

  /** The download URL of a generated file; the base comes from `BACKEND_BASE_URL`
      (given here as `baseUrlSetting`), with `http://localhost:8000` when it is unset. */
  function AudioDownloadUrl(baseUrlSetting: Option<string>, fileName: string): (r: string)
    ensures |r| >= |DownloadPath| + |fileName|
    ensures r[|r| - |DownloadPath| - |fileName|..] == DownloadPath + fileName
    ensures var base := baseUrlSetting.GetOr(DefaultBackendBaseUrl);
      |r| == |base| + |DownloadPath| + |fileName| && r[..|base|] == base
    ensures baseUrlSetting.None? ==> r[..|DefaultBackendBaseUrl|] == DefaultBackendBaseUrl
  {
    baseUrlSetting.GetOr(DefaultBackendBaseUrl) + DownloadPath + fileName
  }

  /** What `convert_text_to_speech` returns: the download URL on success, the pair
      `("", "")` on every failure. */
  datatype SpeechResult = AudioUrl(url: string) | EmptyPair

  /** `convert_text_to_speech`. Nothing raises past it: a failed lookup, a missing user,
      a failed or empty synthesis and a failed file write all give `EmptyPair`. */
  function ConvertTextToSpeech(text: string, userId: string, chatId: Option<int>, turnId: Option<int>,
                               findUser: string -> Fallible<Option<UserRecord>>,
                               synthesize: (string, string) -> Fallible<seq<bv8>>,
                               writeAudio: (string, seq<bv8>) -> bool,
                               baseUrlSetting: Option<string>): (r: SpeechResult)
    ensures !(findUser(userId).Ok? && findUser(userId).value.Some?) ==> r == EmptyPair
    ensures r.AudioUrl? ==> r.url == AudioDownloadUrl(baseUrlSetting, AudioFileName(userId, chatId, turnId))
  {
    match findUser(userId)
    case Raised(_) => EmptyPair
    case Ok(None) => EmptyPair
    case Ok(Some(user)) =>
      match synthesize(text, SpeechLanguage(user))
      case Raised(_) => EmptyPair
      case Ok(audio) =>
        if audio == [] then EmptyPair
        else
          var fileName := AudioFileName(userId, chatId, turnId);
          if !writeAudio(fileName, audio) then EmptyPair
          else AudioUrl(AudioDownloadUrl(baseUrlSetting, fileName))
  }

  /** Synthesis yields a URL exactly when the user is found, synthesis in the user's
      language returns non-empty audio and the file is written; the URL is then the
      download path of `{user_id}_{chat_id}_{turn_id}.wav` under the configured base. */
  lemma SpeechSucceedsExactly(text: string, userId: string, chatId: Option<int>, turnId: Option<int>,
                              findUser: string -> Fallible<Option<UserRecord>>,
                              synthesize: (string, string) -> Fallible<seq<bv8>>,
                              writeAudio: (string, seq<bv8>) -> bool,
                              baseUrlSetting: Option<string>)
    ensures var r := ConvertTextToSpeech(text, userId, chatId, turnId, findUser, synthesize, writeAudio, baseUrlSetting);
      var fileName := AudioFileName(userId, chatId, turnId);
      && (r.AudioUrl? <==>
            && findUser(userId).Ok? && findUser(userId).value.Some?
            && synthesize(text, SpeechLanguage(findUser(userId).value.value)).Ok?
            && synthesize(text, SpeechLanguage(findUser(userId).value.value)).value != []
            && writeAudio(fileName, synthesize(text, SpeechLanguage(findUser(userId).value.value)).value))
      && (r.AudioUrl? ==> r.url == baseUrlSetting.GetOr(DefaultBackendBaseUrl) + DownloadPath + fileName)
  {
  }

  lemma NoUnderscoreInChatIdText(chatId: Option<int>)
    ensures '_' !in ChatIdText(chatId)
  {
    var t := ChatIdText(chatId);
    if chatId.Some? && chatId.value >= 0 {
      assert AllDigits(t);
    } else if chatId.Some? {
      assert AllDigits(t[1..]);
      forall i | 0 <= i < |t| ensures t[i] != '_' {
        if i > 0 { assert t[i] == t[1..][i - 1]; }
      }
    }
  }

  /** A string split at a separator that the first part does not contain splits only there. */
  lemma SplitAtFirst(a: string, b: string, c: string, d: string, sep: char)
    requires sep !in a && sep !in c
    requires a + [sep] + b == c + [sep] + d
    ensures a == c && b == d
  {
    var s := a + [sep] + b;
    assert |a| == |c| by {
      assert forall i :: 0 <= i < |a| ==> s[i] == a[i];
      assert forall i :: 0 <= i < |c| ==> s[i] == c[i];
      assert s[|a|] == sep && s[|c|] == sep;
    }
    assert a == s[..|a|] == c;
    assert b == s[|a| + 1..] == d;
  }

  /** A common prefix and suffix can be cancelled. */
  lemma CancelAffixes(p: string, x: string, y: string, q: string)
    requires p + x + q == p + y + q
    ensures x == y
  {
    var s := p + x + q;
    assert |x| == |y|;
    assert x == s[|p|..|p| + |x|] == y;
  }

  /** Proof helper: the file name as its five parts. */
  lemma FileNameShape(userId: string, chatId: Option<int>, turnId: Option<int>)
    ensures AudioFileName(userId, chatId, turnId)
            == (userId + "_") + (ChatIdText(chatId) + "_" + ChatIdText(turnId)) + ".wav"
  {
  }

  /** For one user, the audio file name tells chats and turns apart: two turns that share
      a file name share both the chat id and the turn id. */
  lemma AudioFileNameInjective(userId: string, c1: Option<int>, t1: Option<int>, c2: Option<int>, t2: Option<int>)
    requires AudioFileName(userId, c1, t1) == AudioFileName(userId, c2, t2)
    ensures c1 == c2 && t1 == t2
  {
    var p := userId + "_";
    var r1 := ChatIdText(c1) + "_" + ChatIdText(t1);
    var r2 := ChatIdText(c2) + "_" + ChatIdText(t2);
    FileNameShape(userId, c1, t1);
    FileNameShape(userId, c2, t2);
    CancelAffixes(p, r1, r2, ".wav");
    NoUnderscoreInChatIdText(c1);
    NoUnderscoreInChatIdText(c2);
    SplitAtFirst(ChatIdText(c1), ChatIdText(t1), ChatIdText(c2), ChatIdText(t2), '_');
    ChatIdTextInjective(c1, c2);
    ChatIdTextInjective(t1, t2);
  }
}

=== FILE: prompt.dfy ===
/** Context assembly for one turn: the fixed prompt list built at construction, the
    document message inserted into a copy of it, and the inputs handed to the executor. */
module PromptAssembly {
  import opened Wrappers
  import opened Conversation
  import opened SummaryStore

  datatype Role = SystemRole | HumanRole

  /** One entry of the prompt list: a (role, template text) pair, or a messages placeholder. */
  datatype PromptMessage = Template(role: Role, text: string) | Placeholder(variableName: string)

  const PastSummariesSlot: PromptMessage := Template(SystemRole, "{past_summaries}")
  const ScratchpadSlot: PromptMessage := Placeholder("agent_scratchpad")

  /** The system messages that advertise the agent's tools, in list order. */
  const ToolMessages: seq<PromptMessage> := [
    Template(SystemRole, "You can retrieve information about the AI using the 'agent_facts' tool."),
    Template(SystemRole, "You can generate suggestions using the 'generate_suggestions' tool."),
    Template(SystemRole, "You can search for information using the 'web_search_bing' tool."),
    Template(SystemRole, "You can search for textbook PDFs using the 'textbook_search' tool."),
    Template(SystemRole, "You can search for textbooks using the 'gutendex_textbook_search' tool."),
    Template(SystemRole, "You can search for information using the 'web_search_tavily' tool."),
    Template(SystemRole, "You can search for locations using the 'location_search_gplaces' tool."),
    Template(SystemRole, "You can retrieve your user profile using the 'user_profile_retrieval' tool."),
    Template(SystemRole, "You can generate documents using the 'generate_document' tool."),
    Template(SystemRole, "You can fetch popular memes using the 'fetch_meme' tool.")
  ]

  /** `base_prompt_messages`: the role message carrying the system text as it was at
      construction, the past-summaries slot, the tool messages, the user id, the input
      and the scratchpad. */
  function BasePrompt(systemContent: string): (r: seq<PromptMessage>)
    ensures |r| == 15
    ensures r[0] == Template(SystemRole, systemContent) && r[1] == PastSummariesSlot
    ensures r[2..12] == ToolMessages
    ensures r[12] == Template(SystemRole, "user_id:{user_id}") && r[13] == Template(HumanRole, "{input}")
    ensures r[14] == ScratchpadSlot
  {
    [Template(SystemRole, systemContent), PastSummariesSlot]
    + ToolMessages
    + [Template(SystemRole, "user_id:{user_id}"), Template(HumanRole, "{input}"), ScratchpadSlot]
  }

  /** The extra system message describing an uploaded document. */
  function DocumentMessage(extracted: string): PromptMessage
  {
    Template(SystemRole, "The user has provided a document:\n" + extracted)
  }

  /** Python's `xs.insert(index, x)`: an index past the end appends. */
  function InsertAt(xs: seq<PromptMessage>, index: nat, x: PromptMessage): seq<PromptMessage>
  {
    var k := if index <= |xs| then index else |xs|;
    xs[..k] + [x] + xs[k..]
  }

  /** The list entry at `index` taken out. */
  function RemoveAt(xs: seq<PromptMessage>, index: nat): seq<PromptMessage>
    requires index < |xs|
  {
    xs[..index] + xs[index + 1..]
  }

  /** The prompt list of a turn: a copy of the base list with the document message
      inserted at position 2 when the extracted text is not empty. */
  function PromptWithDocument(base: seq<PromptMessage>, extracted: string): (r: seq<PromptMessage>)
    ensures extracted == "" ==> r == base
    ensures extracted != "" ==> |r| == |base| + 1 && DocumentMessage(extracted) in r
    ensures forall m :: m in base ==> m in r
  {
    if extracted != "" then InsertAt(base, 2, DocumentMessage(extracted)) else base
  }

  /** Without a document the list is the base list; with one it is one longer, holds the
      document message at position min(2, |base|), and taking that entry out gives the base
      list back, so every other entry keeps its order. */
  lemma PromptWithDocumentShape(base: seq<PromptMessage>, extracted: string)
    ensures extracted == "" ==> PromptWithDocument(base, extracted) == base
    ensures extracted != "" ==>
      var p := PromptWithDocument(base, extracted);
      var k := if |base| < 2 then |base| else 2;
      && |p| == |base| + 1
      && p[k] == DocumentMessage(extracted)
      && RemoveAt(p, k) == base
  {
    if extracted != "" {
      var p := PromptWithDocument(base, extracted);
      var k := if |base| < 2 then |base| else 2;
      assert p == base[..k] + [DocumentMessage(extracted)] + base[k..];
      assert p[..k] == base[..k];
      assert p[k + 1..] == base[k..];
      assert base == base[..k] + base[k..];
    }
  }

  /** On the agent's own list the document lands after both the role message and the
      past-summaries slot, and before the tool messages. */
  lemma DocumentAfterSummariesSlot(systemContent: string, extracted: string)
    requires extracted != ""
    ensures var p := PromptWithDocument(BasePrompt(systemContent), extracted);
      && |p| == 16
      && p[0] == Template(SystemRole, systemContent)
      && p[1] == PastSummariesSlot
      && p[2] == DocumentMessage(extracted)
      && p[3..13] == ToolMessages
      && p[15] == ScratchpadSlot
  {
    var base := BasePrompt(systemContent);
    PromptWithDocumentShape(base, extracted);
    var p := PromptWithDocument(base, extracted);
    assert p == base[..2] + [DocumentMessage(extracted)] + base[2..];
    assert base[2..12] == ToolMessages;
  }

  /** The chat a turn runs in: the one asked for, otherwise the user's most recent. */
  function ResolveChatId(requested: Option<int>, rows: seq<SummaryRow>, userId: string): (r: Option<int>)
    ensures requested.Some? ==> r == requested
    ensures r.None? <==> requested.None? && forall x :: x in rows ==> x.userId != userId
    ensures requested.None? && r.Some? ==> exists x :: x in rows && x.userId == userId && x.chatId == r.value
  {
    if requested.Some? then requested else MostRecentChatId(rows, userId)
  }

  /** Without a chat id the turn runs in the user's chat with the largest id, and in
      chat `None` exactly when the user has no summary row. */
  lemma ResolveChatIdFallback(rows: seq<SummaryRow>, userId: string)
    ensures var c := ResolveChatId(None, rows, userId);
      && (c.None? <==> forall x :: x in rows ==> x.userId != userId)
      && (c.Some? ==> exists x :: x in rows && x.userId == userId && x.chatId == c.value)
      && (c.Some? ==> forall x :: x in rows && x.userId == userId ==> x.chatId <= c.value)
  {
    MostRecentIsMax(rows, userId);
  }

  /** The text extracted from an uploaded file: extraction runs only when both the file
      content and its MIME type are non-empty, and an extraction error propagates. */
  function ExtractedText(fileContent: Option<seq<bv8>>, mimeType: Option<string>,
                         extract: (seq<bv8>, string) -> Fallible<string>): (r: Fallible<string>)
    ensures (fileContent.None? || fileContent.value == [] || mimeType.None? || mimeType.value == "")
            ==> r == Ok("")
    ensures (fileContent.Some? && fileContent.value != [] && mimeType.Some? && mimeType.value != "")
            ==> r == extract(fileContent.value, mimeType.value)
  {
    if fileContent.Some? && fileContent.value != [] && mimeType.Some? && mimeType.value != ""
    then extract(fileContent.value, mimeType.value)
    else Ok("")
  }

  /** What the executor is given for one turn: the prompt list and the values bound to
      its `{input}`, `{user_id}` and `{past_summaries}` slots, the session whose history
      it reads and appends, and whether it uses that history at all. */
  datatype TurnRequest = TurnRequest(
    messages: seq<PromptMessage>,
    input: string,
    userId: string,
    pastSummaries: string,
    sessionId: string,
    withHistory: bool)

  function AssembleRequest(base: seq<PromptMessage>, rows: seq<SummaryRow>, message: string,
                           userId: string, chatId: Option<int>, extracted: string,
                           withHistory: bool): TurnRequest
  {
    TurnRequest(PromptWithDocument(base, extracted), message, userId,
                PastSummariesText(rows, userId), SessionId(userId, chatId), withHistory)
  }
}

=== FILE: store.dfy ===
/** The `chat_summaries`, `user_journeys` and `chat_turns` collections, held in memory,
    and the queries the agent runs against them. */
module SummaryStore {
  import opened Wrappers
  import opened Text
  import opened Conversation

  /** A document of `chat_summaries`; a missing `summary_text` field is `None`. */
  datatype SummaryRow = SummaryRow(
    userId: string,
    chatId: int,
    desiredRole: string,
    perceivedMood: string,
    summaryText: Option<string>,
    concernsProgress: seq<string>)

  /** A document of `user_journeys`. */
  datatype JourneyRow = JourneyRow(
    userId: string,
    patientGoals: seq<string>,
    therapyType: seq<string>,
    lastUpdated: string,
    therapyPlan: seq<string>,
    mentalHealthConcerns: seq<string>)

  // ---------------------------------------------------------------------------
  // find({"user_id": u}).sort("chat_id", -1)
  // ---------------------------------------------------------------------------

  /** The rows of one user, in collection order. */
  function UserRows(rows: seq<SummaryRow>, userId: string): (r: seq<SummaryRow>)
    ensures forall x :: x in r <==> x in rows && x.userId == userId
  {
    if rows == [] then []
    else (if rows[0].userId == userId then [rows[0]] else []) + UserRows(rows[1..], userId)
  }

  /** The filter keeps every copy of each of the user's documents and nothing else. */
  lemma {:induction false} UserRowsMultiplicity(rows: seq<SummaryRow>, userId: string)
    ensures forall x :: multiset(UserRows(rows, userId))[x] == if x.userId == userId then multiset(rows)[x] else 0
  {
    if rows != [] {
      UserRowsMultiplicity(rows[1..], userId);
      assert rows == [rows[0]] + rows[1..];
    }
  }

  predicate SortedByChatIdDesc(rows: seq<SummaryRow>) {
    forall i, j :: 0 <= i < j < |rows| ==> rows[i].chatId >= rows[j].chatId
  }

  function InsertByChatId(x: SummaryRow, rows: seq<SummaryRow>): (r: seq<SummaryRow>)
    requires SortedByChatIdDesc(rows)
    ensures SortedByChatIdDesc(r)
    ensures multiset(r) == multiset(rows) + multiset{x}
  {
    if rows == [] || rows[0].chatId <= x.chatId then [x] + rows
    else
      var rest := InsertByChatId(x, rows[1..]);
      assert rows == [rows[0]] + rows[1..];
      RestBelowHead(x, rows, rest);
      [rows[0]] + rest
  }

  lemma RestBelowHead(x: SummaryRow, rows: seq<SummaryRow>, rest: seq<SummaryRow>)
    requires rows != [] && SortedByChatIdDesc(rows) && x.chatId < rows[0].chatId
    requires multiset(rest) == multiset(rows[1..]) + multiset{x}
    ensures forall k :: 0 <= k < |rest| ==> rest[k].chatId <= rows[0].chatId
  {
    forall k | 0 <= k < |rest|
      ensures rest[k].chatId <= rows[0].chatId
    {
      assert rest[k] in multiset(rest);
      if rest[k] != x {
        assert rest[k] in multiset(rows[1..]);
        var j :| 0 <= j < |rows[1..]| && rows[1..][j] == rest[k];
        assert rows[j + 1] == rest[k];
      }
    }
  }

  /** The rows ordered by descending `chat_id`. The store does not fix an order among rows
      with equal ids; the model fixes one, their collection order. */
  function SortByChatIdDesc(rows: seq<SummaryRow>): (r: seq<SummaryRow>)
    ensures SortedByChatIdDesc(r)
    ensures multiset(r) == multiset(rows)
  {
    if rows == [] then []
    else
      assert rows == [rows[0]] + rows[1..];
      InsertByChatId(rows[0], SortByChatIdDesc(rows[1..]))
  }

  /** The cursor `find({"user_id": userId}).sort("chat_id", -1)`: exactly the user's rows,
      most recent first. */
  function PastSummaryRows(rows: seq<SummaryRow>, userId: string): (r: seq<SummaryRow>)
    ensures SortedByChatIdDesc(r)
    ensures forall x :: x in r <==> x in rows && x.userId == userId
    ensures |r| == |UserRows(rows, userId)|
    ensures multiset(r) == multiset(UserRows(rows, userId))
  {
    var r := SortByChatIdDesc(UserRows(rows, userId));
    assert forall x :: x in r <==> x in multiset(r);
    assert |r| == |multiset(r)|;
    r
  }

  // ---------------------------------------------------------------------------
  // get_chat_id
  // ---------------------------------------------------------------------------

  /** `get_chat_id`: the `chat_id` of the first row of the sorted cursor, or `None`. */
  function MostRecentChatId(rows: seq<SummaryRow>, userId: string): (r: Option<int>)
    ensures r.None? <==> forall x :: x in rows ==> x.userId != userId
    ensures r.Some? ==> exists x :: x in rows && x.userId == userId && x.chatId == r.value
  {
    var sorted := PastSummaryRows(rows, userId);
    if sorted == [] then None
    else
      assert sorted[0] in sorted;
      Some(sorted[0].chatId)
  }

  /** The largest `chat_id` among the user's rows, computed by a plain scan. */
  function MaxChatId(rows: seq<SummaryRow>, userId: string): (r: Option<int>)
    ensures r.None? <==> forall x :: x in rows ==> x.userId != userId
    ensures r.Some? ==> exists x :: x in rows && x.userId == userId && x.chatId == r.value
    ensures r.Some? ==> forall x :: x in rows && x.userId == userId ==> x.chatId <= r.value
  {
    if rows == [] then None
    else
      var rest := MaxChatId(rows[1..], userId);
      assert forall x :: x in rows ==> x == rows[0] || x in rows[1..];
      if rows[0].userId != userId then rest
      else if rest.Some? && rest.value > rows[0].chatId then rest
      else Some(rows[0].chatId)
  }

  /** The sorted-cursor lookup of `get_chat_id` is the maximum chat id of the user,
      and `None` exactly when the user has no row. */
  lemma MostRecentIsMax(rows: seq<SummaryRow>, userId: string)
    ensures MostRecentChatId(rows, userId) == MaxChatId(rows, userId)
  {
    var sorted := PastSummaryRows(rows, userId);
    var m := MaxChatId(rows, userId);
    if m.Some? {
      var w :| w in rows && w.userId == userId && w.chatId == m.value;
      assert w in sorted;
      var k :| 0 <= k < |sorted| && sorted[k] == w;
      assert sorted[0].chatId >= w.chatId;
      assert sorted[0] in sorted;
      assert sorted[0].chatId <= m.value;
    }
  }

  // ---------------------------------------------------------------------------
  // "\n".join(summary.get("summary_text", "") for summary in ...)
  // ---------------------------------------------------------------------------

  /** Each row's `summary_text`, a missing one read as "". */
  function SummaryTexts(rows: seq<SummaryRow>): (r: seq<string>)
    ensures |r| == |rows|
    ensures forall i :: 0 <= i < |rows| ==> r[i] == rows[i].summaryText.GetOr("")
  {
    seq(|rows|, i requires 0 <= i < |rows| => rows[i].summaryText.GetOr(""))
  }

  /** The `past_summaries` text of a turn: every summary of the user, most recent first. */
  function PastSummariesText(rows: seq<SummaryRow>, userId: string): (r: string)
    ensures (forall x :: x in rows ==> x.userId != userId) ==> r == ""
    ensures forall x :: x in rows && x.userId == userId && x.summaryText.GetOr("") != "" ==> r != ""
  {
    var sorted := PastSummaryRows(rows, userId);
    var texts := SummaryTexts(sorted);
    assert sorted != [] ==> sorted[0] in sorted;
    JoinHoldsParts("\n", texts);
    assert forall x :: x in sorted ==> x.summaryText.GetOr("") in texts by {
      forall x | x in sorted ensures x.summaryText.GetOr("") in texts {
        var i :| 0 <= i < |sorted| && sorted[i] == x;
        assert texts[i] == x.summaryText.GetOr("");
      }
    }
    Join("\n", texts)
  }

  /** The `Previous Summaries` text of a first turn: the two most recent summaries only. */
  function RecentSummariesText(rows: seq<SummaryRow>, userId: string): (r: string)
    ensures (forall x :: x in rows ==> x.userId != userId) ==> r == ""
    ensures |UserRows(rows, userId)| <= 2 ==> r == PastSummariesText(rows, userId)
  {
    var sorted := PastSummaryRows(rows, userId);
    assert sorted != [] ==> sorted[0] in sorted;
    Join("\n", SummaryTexts(if |sorted| <= 2 then sorted else sorted[..2]))
  }

  lemma {:induction false} CountAbsent(s: string, c: char)
    requires c !in s
    ensures Count(s, c) == 0
  {
    if s != [] {
      assert forall k :: 0 <= k < |s[1..]| ==> s[1..][k] == s[k + 1];
      CountAbsent(s[1..], c);
    }
  }

  lemma {:induction false} CountAllAbsent(parts: seq<string>, c: char)
    requires forall i :: 0 <= i < |parts| ==> c !in parts[i]
    ensures CountAll(parts, c) == 0
  {
    if parts != [] {
      CountAbsent(parts[0], c);
      CountAllAbsent(parts[1..], c);
    }
  }

  /** When no summary holds a line break, the past-summaries text of a user with n >= 1 rows
      holds exactly n - 1 line breaks: one between each two consecutive summaries. */
  lemma PastSummariesSeparators(rows: seq<SummaryRow>, userId: string)
    requires forall x :: x in rows && x.userId == userId ==> '\n' !in x.summaryText.GetOr("")
    requires exists x :: x in rows && x.userId == userId
    ensures Count(PastSummariesText(rows, userId), '\n') == |UserRows(rows, userId)| - 1
  {
    var sorted := PastSummaryRows(rows, userId);
    var texts := SummaryTexts(sorted);
    var w :| w in rows && w.userId == userId;
    assert w in sorted;
    forall i | 0 <= i < |texts| ensures '\n' !in texts[i] {
      assert sorted[i] in sorted;
    }
    CountAllAbsent(texts, '\n');
    JoinSeparators('\n', texts);
    assert [('\n')] == "\n";
  }

  // ---------------------------------------------------------------------------
  // update_one({"user_id": u, "chat_id": c}, {"$set": {...}})
  // ---------------------------------------------------------------------------

  predicate Matches(row: SummaryRow, userId: string, chatId: int) {
    row.userId == userId && row.chatId == chatId
  }

  /** The index of the first row with this key: the one document `update_one` changes. */
  function FirstMatch(rows: seq<SummaryRow>, userId: string, chatId: int): (r: Option<nat>)
    ensures r.None? <==> forall i :: 0 <= i < |rows| ==> !Matches(rows[i], userId, chatId)
    ensures r.Some? ==> r.value < |rows| && Matches(rows[r.value], userId, chatId)
    ensures r.Some? ==> forall i :: 0 <= i < r.value ==> !Matches(rows[i], userId, chatId)
  {
    if rows == [] then None
    else if Matches(rows[0], userId, chatId) then Some(0)
    else match FirstMatch(rows[1..], userId, chatId)
      case None => None
      case Some(k) => Some(k + 1)
  }

  /** The collection after `perform_final_processes` writes mood and summary: the first row
      with the key gets both fields in one write, every other row and field stays. */
  function SetMoodAndSummary(rows: seq<SummaryRow>, userId: string, chatId: int,
                             mood: string, summary: string): (r: seq<SummaryRow>)
    ensures |r| == |rows|
    ensures FirstMatch(rows, userId, chatId).None? ==> r == rows
    ensures forall i :: 0 <= i < |rows| && Some(i) != FirstMatch(rows, userId, chatId) ==> r[i] == rows[i]
    ensures FirstMatch(rows, userId, chatId).Some? ==>
      var i := FirstMatch(rows, userId, chatId).value;
      && r[i].perceivedMood == mood && r[i].summaryText == Some(summary)
      && r[i].userId == rows[i].userId && r[i].chatId == rows[i].chatId
      && r[i].desiredRole == rows[i].desiredRole && r[i].concernsProgress == rows[i].concernsProgress
  {
    match FirstMatch(rows, userId, chatId)
    case None => rows
    case Some(i) => rows[i := rows[i].(perceivedMood := mood, summaryText := Some(summary))]
  }

  /** Rows with the same keys in the same places have the same first match. */
  lemma {:induction false} FirstMatchSameKeys(a: seq<SummaryRow>, b: seq<SummaryRow>, userId: string, chatId: int)
    requires |a| == |b|
    requires forall i :: 0 <= i < |a| ==> a[i].userId == b[i].userId && a[i].chatId == b[i].chatId
    ensures FirstMatch(a, userId, chatId) == FirstMatch(b, userId, chatId)
  {
    if a != [] {
      FirstMatchSameKeys(a[1..], b[1..], userId, chatId);
    }
  }

  /** Finalising twice with the same mood and summary leaves what finalising once left. */
  lemma SetMoodAndSummaryIdempotent(rows: seq<SummaryRow>, userId: string, chatId: int,
                                    mood: string, summary: string)
    ensures var once := SetMoodAndSummary(rows, userId, chatId, mood, summary);
            SetMoodAndSummary(once, userId, chatId, mood, summary) == once
  {
    var once := SetMoodAndSummary(rows, userId, chatId, mood, summary);
    FirstMatchSameKeys(rows, once, userId, chatId);
  }

  /** A row appended under a key no earlier row has is the row a later update of that key
      changes (the row `get_initial_greeting` creates is the one finalisation fills). */
  lemma UpdateHitsInsertedRow(rows: seq<SummaryRow>, row: SummaryRow, mood: string, summary: string)
    requires forall x :: x in rows ==> !Matches(x, row.userId, row.chatId)
    ensures FirstMatch(rows + [row], row.userId, row.chatId) == Some(|rows|)
    ensures SetMoodAndSummary(rows + [row], row.userId, row.chatId, mood, summary)
            == rows + [row.(perceivedMood := mood, summaryText := Some(summary))]
  {
    var all := rows + [row];
    var f := FirstMatch(all, row.userId, row.chatId);
    assert Matches(all[|rows|], row.userId, row.chatId);
    forall i | 0 <= i < |rows| ensures !Matches(all[i], row.userId, row.chatId) {
      assert all[i] == rows[i] && rows[i] in rows;
    }
    assert f == Some(|rows|);
    var updated := row.(perceivedMood := mood, summaryText := Some(summary));
    assert all[|rows| := updated] == rows + [updated];
  }

  /** Whether `find_one({"user_id": userId})` on `user_journeys` finds a document. */
  predicate HasJourney(journeys: seq<JourneyRow>, userId: string) {
    exists j :: j in journeys && j.userId == userId
  }

  // ---------------------------------------------------------------------------
  // chat_turns
  // ---------------------------------------------------------------------------

  /** The stored messages of a session, oldest first; a session never written reads as empty. */
  function SessionHistory(turns: map<string, seq<ChatMessage>>, sessionId: string): seq<ChatMessage>
  {
    if sessionId in turns then turns[sessionId] else []
  }

  /** `add_messages` on a session's history: the messages go to the end of that session's
      history, and no other session changes. */
  function AppendTurns(turns: map<string, seq<ChatMessage>>, sessionId: string, msgs: seq<ChatMessage>)
    : (r: map<string, seq<ChatMessage>>)
    ensures SessionHistory(r, sessionId) == SessionHistory(turns, sessionId) + msgs
    ensures forall k :: k != sessionId ==> (k in r <==> k in turns)
    ensures forall k :: k != sessionId && k in turns ==> r[k] == turns[k]
    ensures msgs == [] ==> r == turns
  {
    if msgs == [] then turns else turns[sessionId := SessionHistory(turns, sessionId) + msgs]
  }

  /** Two appends to one session are one append of both, in order. */
  lemma AppendTurnsTwice(turns: map<string, seq<ChatMessage>>, sessionId: string,
                         a: seq<ChatMessage>, b: seq<ChatMessage>)
    ensures AppendTurns(AppendTurns(turns, sessionId, a), sessionId, b) == AppendTurns(turns, sessionId, a + b)
  {
    var lhs := AppendTurns(AppendTurns(turns, sessionId, a), sessionId, b);
    var rhs := AppendTurns(turns, sessionId, a + b);
    if a == [] {
      assert a + b == b;
    } else if b == [] {
      assert a + b == a;
    } else {
      assert SessionHistory(lhs, sessionId) == SessionHistory(turns, sessionId) + a + b;
      assert sessionId in lhs && sessionId in rhs;
      assert lhs.Keys == rhs.Keys;
      assert forall k :: k in lhs ==> lhs[k] == rhs[k];
    }
  }

  /** The collections, updated in place by the agent. A history missing from
      `chat_turns` reads as empty. */
  class Database {
    var chatSummaries: seq<SummaryRow>
    var userJourneys: seq<JourneyRow>
    var chatTurns: map<string, seq<ChatMessage>>

    constructor (summaries: seq<SummaryRow>, journeys: seq<JourneyRow>, turns: map<string, seq<ChatMessage>>)
      ensures chatSummaries == summaries && userJourneys == journeys && chatTurns == turns
    {
      chatSummaries := summaries;
      userJourneys := journeys;
      chatTurns := turns;
    }

    /** The stored messages of a session, oldest first. */
    function SessionMessages(sessionId: string): seq<ChatMessage>
      reads this
    {
      SessionHistory(chatTurns, sessionId)
    }

    /** `add_messages` on the history of one session. */
    method AppendMessages(sessionId: string, msgs: seq<ChatMessage>)
      modifies this
      ensures chatTurns == AppendTurns(old(chatTurns), sessionId, msgs)
      ensures chatSummaries == old(chatSummaries) && userJourneys == old(userJourneys)
    {
      chatTurns := AppendTurns(chatTurns, sessionId, msgs);
    }

    /** `chat_summaries.insert_one(row)`. */
    method InsertSummary(row: SummaryRow)
      modifies this
      ensures chatSummaries == old(chatSummaries) + [row]
      ensures userJourneys == old(userJourneys) && chatTurns == old(chatTurns)
    {
      chatSummaries := chatSummaries + [row];
    }

    /** `user_journeys.insert_one(row)`. */
    method InsertJourney(row: JourneyRow)
      modifies this
      ensures userJourneys == old(userJourneys) + [row]
      ensures HasJourney(userJourneys, row.userId)
      ensures chatSummaries == old(chatSummaries) && chatTurns == old(chatTurns)
    {
      userJourneys := userJourneys + [row];
      assert row in userJourneys;
    }

    /** `chat_summaries.update_one` setting `perceived_mood` and `summary_text` together. */
    method UpdateMoodAndSummary(userId: string, chatId: int, mood: string, summary: string)
      modifies this
      ensures chatSummaries == SetMoodAndSummary(old(chatSummaries), userId, chatId, mood, summary)
      ensures userJourneys == old(userJourneys) && chatTurns == old(chatTurns)
    {
      chatSummaries := SetMoodAndSummary(chatSummaries, userId, chatId, mood, summary);
    }
  }
}

=== FILE: summarizer.dfy ===
/** `get_summary_from_chat_history`: the stored history is walked two messages at a time
    and each (human, reply) pair is folded into a running summary. */
module Summarizer {
  import opened Wrappers
  import opened Conversation
  import opened SummaryStore

  /** Whether the loop folds the pair (i, i + 1): i is one of 0, 2, 4, ..., the pair lies
      inside the history, and a human message is followed by a non-human one. */
  predicate FoldsPairAt(ms: seq<ChatMessage>, i: nat) {
    i % 2 == 0 && i + 1 < |ms| && ms[i].kind == Human && ms[i + 1].kind != Human
  }

  /** The indices below n at which a pair is folded, in increasing order. */
  function FoldedIndicesBelow(ms: seq<ChatMessage>, n: nat): seq<nat>
  {
    if n == 0 then [] else FoldedIndicesBelow(ms, n - 1) + (if FoldsPairAt(ms, n - 1) then [n - 1] else [])
  }

  function FoldedIndices(ms: seq<ChatMessage>): seq<nat>
  {
    FoldedIndicesBelow(ms, |ms|)
  }

  /** Exactly the folding positions below n appear, each once, in increasing order. */
  lemma {:induction false} FoldedIndicesBelowExact(ms: seq<ChatMessage>, n: nat)
    ensures forall k: nat :: k in FoldedIndicesBelow(ms, n) <==> k < n && FoldsPairAt(ms, k)
    ensures forall a, b :: 0 <= a < b < |FoldedIndicesBelow(ms, n)| ==>
              FoldedIndicesBelow(ms, n)[a] < FoldedIndicesBelow(ms, n)[b]
  {
    if n > 0 {
      FoldedIndicesBelowExact(ms, n - 1);
      var prev := FoldedIndicesBelow(ms, n - 1);
      var cur := FoldedIndicesBelow(ms, n);
      forall a, b | 0 <= a < b < |cur| ensures cur[a] < cur[b] {
        if b == |prev| {
          assert cur[a] == prev[a] && prev[a] in prev;
        } else {
          assert cur[a] == prev[a] && cur[b] == prev[b];
        }
      }
    }
  }

  /** No folding position lies at or beyond the end of the history. */
  lemma {:induction false} FoldedIndicesBeyond(ms: seq<ChatMessage>, n: nat)
    requires n >= |ms|
    ensures FoldedIndicesBelow(ms, n) == FoldedIndices(ms)
    decreases n
  {
    if n > |ms| {
      FoldedIndicesBeyond(ms, n - 1);
    }
  }

  /** The pairs the loop folds are exactly those at even i with a human message at i and a
      non-human message at i + 1, in increasing order; in particular the last message of
      an odd-length history is never folded, and an odd position never starts a pair. */
  lemma FoldedPairsExact(ms: seq<ChatMessage>)
    ensures forall k: nat :: k in FoldedIndices(ms) <==>
              k % 2 == 0 && k + 1 < |ms| && ms[k].kind == Human && ms[k + 1].kind != Human
    ensures forall a, b :: 0 <= a < b < |FoldedIndices(ms)| ==> FoldedIndices(ms)[a] < FoldedIndices(ms)[b]
    ensures |ms| % 2 == 1 ==> |ms| - 1 !in FoldedIndices(ms)
  {
    assert FoldedIndices(ms) == FoldedIndicesBelow(ms, |ms|);
    FoldedIndicesBelowExact(ms, |ms|);
  }

  /** Of [human, ai, human, human, ai] only the pair (0, 1) is folded. */
  lemma SkipsHumanHuman(h1: string, a1: string, h2: string, h3: string, a2: string)
    ensures FoldedIndices([ChatMessage(Human, h1), ChatMessage(Ai, a1), ChatMessage(Human, h2),
                           ChatMessage(Human, h3), ChatMessage(Ai, a2)]) == [0]
  {
    var ms := [ChatMessage(Human, h1), ChatMessage(Ai, a1), ChatMessage(Human, h2),
               ChatMessage(Human, h3), ChatMessage(Ai, a2)];
    assert FoldedIndicesBelow(ms, 1) == [0];
    assert FoldedIndicesBelow(ms, 2) == [0];
    assert FoldedIndicesBelow(ms, 3) == [0];
    assert FoldedIndicesBelow(ms, 4) == [0];
  }

  /** The stride does not re-synchronise: when one reply leads an otherwise alternating
      history, every human message sits at an odd position and nothing is ever folded,
      however many (human, reply) pairs follow. */
  lemma NoResynchronisation(ms: seq<ChatMessage>)
    requires |ms| > 0 && ms[0].kind != Human
    requires forall k :: 1 <= k < |ms| ==> (ms[k].kind == Human <==> k % 2 == 1)
    ensures FoldedIndices(ms) == []
  {
    forall k: nat ensures !FoldsPairAt(ms, k) {
      if 0 < k < |ms| {
        assert ms[k].kind == Human <==> k % 2 == 1;
      }
    }
    NothingFoldedBelow(ms, |ms|);
  }

  lemma {:induction false} NothingFoldedBelow(ms: seq<ChatMessage>, n: nat)
    requires forall k: nat :: k < n ==> !FoldsPairAt(ms, k)
    ensures FoldedIndicesBelow(ms, n) == []
  {
    if n > 0 {
      NothingFoldedBelow(ms, n - 1);
    }
  }

  /** The (input, output) contexts saved into the summary memory for the given positions. */
  function SavedContexts(ms: seq<ChatMessage>, idx: seq<nat>): seq<(string, string)>
    requires forall j :: 0 <= j < |idx| ==> idx[j] + 1 < |ms|
  {
    seq(|idx|, j requires 0 <= j < |idx| => (ms[idx[j]].content, ms[idx[j] + 1].content))
  }

  /** The summary buffer after saving `contexts` in order, starting from the empty buffer;
      each save condenses one (input, output) pair into the buffer with a model call, and
      the first call that raises ends the fold with its exception. */
  function Condense(contexts: seq<(string, string)>,
                    condense: (string, string, string) -> Fallible<string>): (r: Fallible<string>)
    ensures r.Raised? ==> contexts != []
  {
    if contexts == [] then Ok("")
    else
      match Condense(contexts[..|contexts| - 1], condense)
      case Raised(e) => Raised(e)
      case Ok(buffer) => condense(contexts[|contexts| - 1].0, contexts[|contexts| - 1].1, buffer)
  }

  /** Once a save has raised, saving more contexts does not change the outcome. */
  lemma {:induction false} CondenseStopsAtRaise(prefix: seq<(string, string)>, more: seq<(string, string)>,
                                                condense: (string, string, string) -> Fallible<string>)
    requires Condense(prefix, condense).Raised?
    ensures Condense(prefix + more, condense) == Condense(prefix, condense)
    decreases |more|
  {
    if more == [] {
      assert prefix + more == prefix;
    } else {
      var shorter := more[..|more| - 1];
      CondenseStopsAtRaise(prefix, shorter, condense);
      assert (prefix + more)[..|prefix + more| - 1] == prefix + shorter;
    }
  }

  /** The messages that saving `contexts` writes back into the session's own history: the
      summary memory is bound to that history, so each save first appends its (input,
      output) pair as a human and an AI message and only then condenses. Saves stop after
      the first one that raises, whose pair has already been appended. */
  function Echoed(contexts: seq<(string, string)>,
                  condense: (string, string, string) -> Fallible<string>): (r: seq<ChatMessage>)
    ensures |r| % 2 == 0 && |r| <= 2 * |contexts|
  {
    if contexts == [] then []
    else
      var last := contexts[|contexts| - 1];
      Echoed(contexts[..|contexts| - 1], condense)
      + (if Condense(contexts[..|contexts| - 1], condense).Raised? then []
         else [ChatMessage(Human, last.0), ChatMessage(Ai, last.1)])
  }

  /** Every saved pair, written as a human and an AI message, in order. */
  function EchoMessages(contexts: seq<(string, string)>): (r: seq<ChatMessage>)
    ensures |r| == 2 * |contexts|
    ensures forall j :: 0 <= j < |contexts| ==>
              r[2 * j] == ChatMessage(Human, contexts[j].0) && r[2 * j + 1] == ChatMessage(Ai, contexts[j].1)
  {
    if contexts == [] then []
    else
      var init := contexts[..|contexts| - 1];
      var last := contexts[|contexts| - 1];
      var r := EchoMessages(init) + [ChatMessage(Human, last.0), ChatMessage(Ai, last.1)];
      assert forall j :: 0 <= j < |init| ==> contexts[j] == init[j];
      r
  }

  /** When no save raises, every saved pair is written back to the history. */
  lemma {:induction false} EchoedWhenAllSucceed(contexts: seq<(string, string)>,
                                                condense: (string, string, string) -> Fallible<string>)
    requires Condense(contexts, condense).Ok?
    ensures Echoed(contexts, condense) == EchoMessages(contexts)
  {
    if contexts != [] {
      EchoedWhenAllSucceed(contexts[..|contexts| - 1], condense);
    }
  }

  /** What the saves write back is a prefix of the full write-back: every pair up to the
      first save that raises, and all of them when none raises. */
  lemma {:induction false} EchoedIsPrefix(contexts: seq<(string, string)>,
                                          condense: (string, string, string) -> Fallible<string>)
    ensures Echoed(contexts, condense) <= EchoMessages(contexts)
  {
    if contexts != [] {
      var init := contexts[..|contexts| - 1];
      EchoedIsPrefix(init, condense);
      if Condense(init, condense).Ok? {
        EchoedWhenAllSucceed(init, condense);
      }
    }
  }

  /** Once a save has raised, no later pair is written back. */
  lemma {:induction false} EchoStopsAtRaise(prefix: seq<(string, string)>, more: seq<(string, string)>,
                                            condense: (string, string, string) -> Fallible<string>)
    requires Condense(prefix, condense).Raised?
    ensures Echoed(prefix + more, condense) == Echoed(prefix, condense)
    decreases |more|
  {
    if more == [] {
      assert prefix + more == prefix;
    } else {
      var shorter := more[..|more| - 1];
      EchoStopsAtRaise(prefix, shorter, condense);
      CondenseStopsAtRaise(prefix, shorter, condense);
      assert (prefix + more)[..|prefix + more| - 1] == prefix + shorter;
    }
  }

  lemma {:induction false} FoldedIndicesPrefix(ms: seq<ChatMessage>, m: nat, n: nat)
    requires m <= n
    ensures FoldedIndicesBelow(ms, m) <= FoldedIndicesBelow(ms, n)
    decreases n - m
  {
    if m < n {
      FoldedIndicesPrefix(ms, m, n - 1);
    }
  }

  function PositionsBelow(ms: seq<ChatMessage>, n: nat): (idx: seq<nat>)
    ensures forall j :: 0 <= j < |idx| ==> idx[j] + 1 < |ms|
  {
    FoldedIndicesBelowExact(ms, n);
    assert forall j :: 0 <= j < |FoldedIndicesBelow(ms, n)| ==> FoldedIndicesBelow(ms, n)[j] in FoldedIndicesBelow(ms, n);
    FoldedIndicesBelow(ms, n)
  }

  /** The summary of a stored history: the fold over exactly the pairs the loop selects. */
  function HistorySummary(ms: seq<ChatMessage>, condense: (string, string, string) -> Fallible<string>): (r: Fallible<string>)
    ensures FoldedIndices(ms) == [] ==> r == Ok("")
  {
    Condense(SavedContexts(ms, PositionsBelow(ms, |ms|)), condense)
  }

  /** What summarising a stored history writes back into it. */
  function HistoryEcho(ms: seq<ChatMessage>, condense: (string, string, string) -> Fallible<string>): (r: seq<ChatMessage>)
    ensures |r| <= 2 * |FoldedIndices(ms)|
    ensures r <= EchoMessages(SavedContexts(ms, PositionsBelow(ms, |ms|)))
  {
    EchoedIsPrefix(SavedContexts(ms, PositionsBelow(ms, |ms|)), condense);
    Echoed(SavedContexts(ms, PositionsBelow(ms, |ms|)), condense)
  }

  /** When every save succeeds, summarising appends each folded pair again, as a human
      and an AI message, in the order the pairs were folded. */
  lemma EchoWhenSummarySucceeds(ms: seq<ChatMessage>, condense: (string, string, string) -> Fallible<string>)
    requires HistorySummary(ms, condense).Ok?
    ensures var idx := FoldedIndices(ms);
      var echo := HistoryEcho(ms, condense);
      && |echo| == 2 * |idx|
      && forall j :: 0 <= j < |idx| ==>
           echo[2 * j] == ChatMessage(Human, ms[idx[j]].content)
           && echo[2 * j + 1] == ChatMessage(Ai, ms[idx[j] + 1].content)
  {
    var contexts := SavedContexts(ms, PositionsBelow(ms, |ms|));
    EchoedWhenAllSucceed(contexts, condense);
    assert HistoryEcho(ms, condense) == EchoMessages(contexts);
    assert |contexts| == |FoldedIndices(ms)|;
  }

  /** One pass of the loop body adds the pair at i, if it is folded, to the saved contexts. */
  lemma StepContexts(ms: seq<ChatMessage>, i: nat)
    requires i % 2 == 0
    ensures SavedContexts(ms, PositionsBelow(ms, i + 2))
            == SavedContexts(ms, PositionsBelow(ms, i))
               + (if FoldsPairAt(ms, i) then [(ms[i].content, ms[i + 1].content)] else [])
  {
    assert PositionsBelow(ms, i + 1) == PositionsBelow(ms, i) + (if FoldsPairAt(ms, i) then [i] else []);
    assert !FoldsPairAt(ms, i + 1);
    assert PositionsBelow(ms, i + 2) == PositionsBelow(ms, i + 1);
  }

  /** A folded pair is condensed into the buffer the earlier pairs left, and is written
      back to the history after what they wrote. */
  lemma FoldStep(ms: seq<ChatMessage>, i: nat, condense: (string, string, string) -> Fallible<string>)
    requires i % 2 == 0 && FoldsPairAt(ms, i)
    requires Condense(SavedContexts(ms, PositionsBelow(ms, i)), condense).Ok?
    ensures var before := SavedContexts(ms, PositionsBelow(ms, i));
      var after := SavedContexts(ms, PositionsBelow(ms, i + 2));
      && Condense(after, condense) == condense(ms[i].content, ms[i + 1].content, Condense(before, condense).value)
      && Echoed(after, condense) == Echoed(before, condense) + [ChatMessage(Human, ms[i].content), ChatMessage(Ai, ms[i + 1].content)]
  {
    StepContexts(ms, i);
    var before := SavedContexts(ms, PositionsBelow(ms, i));
    var after := SavedContexts(ms, PositionsBelow(ms, i + 2));
    assert after[..|after| - 1] == before;
    assert after[|after| - 1] == (ms[i].content, ms[i + 1].content);
  }

  /** A pair that is not folded changes neither the buffer nor the history. */
  lemma SkipStep(ms: seq<ChatMessage>, i: nat)
    requires i % 2 == 0 && !FoldsPairAt(ms, i)
    ensures SavedContexts(ms, PositionsBelow(ms, i + 2)) == SavedContexts(ms, PositionsBelow(ms, i))
  {
    StepContexts(ms, i);
    assert SavedContexts(ms, PositionsBelow(ms, i + 2)) == SavedContexts(ms, PositionsBelow(ms, i)) + [];
  }

  /** A save that raises part-way through the loop decides the whole summary. */
  lemma RaiseDecides(ms: seq<ChatMessage>, n: nat, condense: (string, string, string) -> Fallible<string>)
    requires Condense(SavedContexts(ms, PositionsBelow(ms, n)), condense).Raised?
    ensures HistorySummary(ms, condense) == Condense(SavedContexts(ms, PositionsBelow(ms, n)), condense)
    ensures HistoryEcho(ms, condense) == Echoed(SavedContexts(ms, PositionsBelow(ms, n)), condense)
  {
    var part := SavedContexts(ms, PositionsBelow(ms, n));
    var all := SavedContexts(ms, PositionsBelow(ms, |ms|));
    var top := if n <= |ms| then |ms| else n;
    FoldedIndicesPrefix(ms, n, top);
    FoldedIndicesBeyond(ms, top);
    assert PositionsBelow(ms, n) <= PositionsBelow(ms, |ms|);
    assert all == part + all[|part|..];
    CondenseStopsAtRaise(part, all[|part|..], condense);
    EchoStopsAtRaise(part, all[|part|..], condense);
  }

  /** `get_summary_from_chat_history`: the stride-2 loop over the session's stored
      messages, read once before the loop. Each folded pair is appended to the session's
      history before it is condensed; the first save that raises ends the loop. */
  method SummaryFromHistory(db: Database, sessionId: string,
                            condense: (string, string, string) -> Fallible<string>)
    returns (summary: Fallible<string>)
    modifies db
    ensures summary == HistorySummary(old(db.SessionMessages(sessionId)), condense)
    ensures db.chatTurns == AppendTurns(old(db.chatTurns), sessionId,
                                        HistoryEcho(old(db.SessionMessages(sessionId)), condense))
    ensures db.chatSummaries == old(db.chatSummaries) && db.userJourneys == old(db.userJourneys)
  {
    var ms := db.SessionMessages(sessionId);
    ghost var turns := db.chatTurns;
    var buffer := "";
    var i := 0;
    while i < |ms|
      invariant i % 2 == 0 && i <= |ms| + 1
      invariant Condense(SavedContexts(ms, PositionsBelow(ms, i)), condense) == Ok(buffer)
      invariant db.chatTurns == AppendTurns(turns, sessionId, Echoed(SavedContexts(ms, PositionsBelow(ms, i)), condense))
      invariant db.chatSummaries == old(db.chatSummaries) && db.userJourneys == old(db.userJourneys)
    {
      ghost var before := SavedContexts(ms, PositionsBelow(ms, i));
      if i + 1 < |ms| && ms[i].kind == Human && ms[i + 1].kind != Human {
        FoldStep(ms, i, condense);
        var pair := [ChatMessage(Human, ms[i].content), ChatMessage(Ai, ms[i + 1].content)];
        db.AppendMessages(sessionId, pair);
        AppendTurnsTwice(turns, sessionId, Echoed(before, condense), pair);
        var next := condense(ms[i].content, ms[i + 1].content, buffer);
        if next.Raised? {
          RaiseDecides(ms, i + 2, condense);
          return next;
        }
        buffer := next.value;
      } else {
        SkipStep(ms, i);
      }
      i := i + 2;
    }
    FoldedIndicesBeyond(ms, i);
    summary := Ok(buffer);
  }
}

=== FILE: text.dfy ===
/** The Python string operations the agent relies on: `str.strip()`, `str.lower()`,
    `sep.join(parts)` and `str(n)` for integers. */
module Text {

  // ---------------------------------------------------------------------------
  // Whitespace and str.strip()
  // ---------------------------------------------------------------------------

  /** The characters for which Python's `str.isspace()` holds; `str.strip()` removes these. */
  predicate IsSpace(c: char) {
    || ('\t' <= c <= '\r')
    || ('\U{1C}' <= c <= ' ')
    || c == '\U{85}' || c == '\U{A0}' || c == '\U{1680}'
    || ('\U{2000}' <= c <= '\U{200A}')
    || c == '\U{2028}' || c == '\U{2029}' || c == '\U{202F}' || c == '\U{205F}' || c == '\U{3000}'
  }

  predicate AllSpace(s: string) {
    forall i :: 0 <= i < |s| ==> IsSpace(s[i])
  }

  /** Neither end of `s` is whitespace. */
  predicate Stripped(s: string) {
    s == [] || (!IsSpace(s[0]) && !IsSpace(s[|s| - 1]))
  }

  /** Drops the leading whitespace. */
  function TrimStart(s: string): (r: string)
    ensures |r| <= |s| && r == s[|s| - |r|..]
    ensures AllSpace(s[..|s| - |r|])
    ensures r == [] || !IsSpace(r[0])
    decreases |s|
  {
    if |s| > 0 && IsSpace(s[0]) then
      var r := TrimStart(s[1..]);
      StartStep(s, r);
      r
    else s
  }

  /** One more leading space in front of a suffix that is already stripped at the front. */
  lemma StartStep(s: string, r: string)
    requires |s| > 0 && IsSpace(s[0])
    requires |r| <= |s| - 1 && r == s[1..][|s| - 1 - |r|..] && AllSpace(s[1..][..|s| - 1 - |r|])
    ensures r == s[|s| - |r|..] && AllSpace(s[..|s| - |r|])
  {
    assert s[1..][|s| - 1 - |r|..] == s[|s| - |r|..];
    assert s[..|s| - |r|] == [s[0]] + s[1..][..|s| - 1 - |r|];
  }

  /** One more trailing space after a prefix that is already stripped at the back. */
  lemma EndStep(s: string, r: string)
    requires |s| > 0 && IsSpace(s[|s| - 1])
    requires |r| <= |s| - 1 && r == s[..|s| - 1][..|r|] && AllSpace(s[..|s| - 1][|r|..])
    ensures r == s[..|r|] && AllSpace(s[|r|..])
  {
    assert s[..|s| - 1][..|r|] == s[..|r|];
    assert s[|r|..] == s[..|s| - 1][|r|..] + [s[|s| - 1]];
  }

  /** Drops the trailing whitespace. */
  function TrimEnd(s: string): (r: string)
    ensures |r| <= |s| && r == s[..|r|]
    ensures AllSpace(s[|r|..])
    ensures r == [] || !IsSpace(r[|r| - 1])
    decreases |s|
  {
    if |s| > 0 && IsSpace(s[|s| - 1]) then
      var r := TrimEnd(s[..|s| - 1]);
      EndStep(s, r);
      r
    else s
  }

  /** Python's `s.strip()`: the result is a slice of `s` with whitespace at neither end,
      and everything cut off on either side is whitespace. */
  function Trim(s: string): (r: string)
    ensures Stripped(r)
    ensures |r| <= |s|
    ensures exists lead, tail :: s == lead + r + tail && AllSpace(lead) && AllSpace(tail)
  {
    var t := TrimStart(s);
    var r := TrimEnd(t);
    TrimPieces(s, t, r);
    var i := |s| - |t|;
    assert s == s[..i] + r + s[i + |r|..];
    r
  }

  /** Stripping at the front and then at the back leaves a slice of `s` with whitespace at
      neither end and only whitespace around it. */
  lemma TrimSlice(s: string, t: string, r: string)
    requires |t| <= |s| && t == s[|s| - |t|..] && AllSpace(s[..|s| - |t|]) && (t == [] || !IsSpace(t[0]))
    requires |r| <= |t| && r == t[..|r|] && AllSpace(t[|r|..]) && (r == [] || !IsSpace(r[|r| - 1]))
    ensures Stripped(r) && |s| - |t| + |r| <= |s|
    ensures s[|s| - |t|..|s| - |t| + |r|] == r
    ensures AllSpace(s[..|s| - |t|]) && AllSpace(s[|s| - |t| + |r|..])
  {
    var i := |s| - |t|;
    assert r == [] || r[0] == t[0];
    SliceOfSuffix(s, i, t, r);
  }

  /** A prefix `r` of the suffix `t == s[i..]` sits in `s` at `i`, followed by the rest of `t`. */
  lemma SliceOfSuffix(s: string, i: nat, t: string, r: string)
    requires i <= |s| && t == s[i..]
    requires |r| <= |t| && r == t[..|r|]
    ensures i + |r| <= |s|
    ensures s[i..i + |r|] == r && s[i + |r|..] == t[|r|..]
  {
    assert forall k :: 0 <= k < |r| ==> s[i..i + |r|][k] == s[i + k] == t[k] == r[k];
    assert forall k :: 0 <= k < |s| - (i + |r|) ==> s[i + |r|..][k] == s[i + |r| + k] == t[|r| + k] == t[|r|..][k];
  }

  lemma {:induction false} TrimStartSkips(lead: string, rest: string)
    requires AllSpace(lead)
    requires rest == [] || !IsSpace(rest[0])
    ensures TrimStart(lead + rest) == rest
    decreases |lead|
  {
    if lead != [] {
      assert (lead + rest)[1..] == lead[1..] + rest;
      TrimStartSkips(lead[1..], rest);
    } else {
      assert lead + rest == rest;
    }
  }

  lemma {:induction false} TrimEndSkips(rest: string, tail: string)
    requires AllSpace(tail)
    requires rest == [] || !IsSpace(rest[|rest| - 1])
    ensures TrimEnd(rest + tail) == rest
    decreases |tail|
  {
    if tail != [] {
      assert (rest + tail)[..|rest + tail| - 1] == rest + tail[..|tail| - 1];
      TrimEndSkips(rest, tail[..|tail| - 1]);
    } else {
      assert rest + tail == rest;
    }
  }

  /** `Trim` is determined by its contract: whatever splits `s` into whitespace, a stripped
      core and whitespace, the core is what `Trim` returns. */
  lemma TrimUnique(s: string, lead: string, core: string, tail: string)
    requires s == lead + core + tail
    requires AllSpace(lead) && AllSpace(tail) && Stripped(core)
    ensures Trim(s) == core
  {
    if core == [] {
      assert s == (lead + tail) + [];
      TrimStartSkips(lead + tail, []);
    } else {
      assert s == lead + (core + tail);
      TrimStartSkips(lead, core + tail);
      TrimEndSkips(core, tail);
    }
  }

  /** A text without whitespace at either end strips to itself. */
  lemma StrippedIsFixed(s: string)
    requires Stripped(s)
    ensures Trim(s) == s
  {
    assert s == [] + s + [];
    TrimUnique(s, [], s, []);
  }

  /** Stripping twice is stripping once. */
  lemma TrimIdempotent(s: string)
    ensures Trim(Trim(s)) == Trim(s)
  {
    StrippedIsFixed(Trim(s));
  }

  // ---------------------------------------------------------------------------
  // str.lower()
  // ---------------------------------------------------------------------------

  function LowerChar(c: char): char {
    if 'A' <= c <= 'Z' then (c as int + 32) as char else c
  }

  /** Python's `s.lower()`, on the ASCII letters. */
  function Lower(s: string): (r: string)
    ensures |r| == |s|
    ensures forall i :: 0 <= i < |s| ==> r[i] == LowerChar(s[i])
  {
    seq(|s|, i requires 0 <= i < |s| => LowerChar(s[i]))
  }

  /** Lowering leaves no upper-case ASCII letter, and lowering again changes nothing. */
  lemma LowerIdempotent(s: string)
    ensures forall i :: 0 <= i < |s| ==> !('A' <= Lower(s)[i] <= 'Z')
    ensures Lower(Lower(s)) == Lower(s)
  {
  }

  lemma LowerCharKeepsSpace(c: char)
    ensures IsSpace(LowerChar(c)) <==> IsSpace(c)
  {
  }

  /** Lowering keeps whitespace where it was and only maps the other characters, so
      stripping and lowering can be done in either order. */
  lemma TrimAfterLower(s: string)
    ensures Trim(Lower(s)) == Lower(Trim(s))
  {
    var lead, tail :| s == lead + Trim(s) + tail && AllSpace(lead) && AllSpace(tail);
    TrimLowerOfSplit(s, lead, Trim(s), tail);
  }

  /** The pieces around the slice that stripping keeps. */
  lemma TrimPieces(s: string, t: string, r: string)
    requires |t| <= |s| && t == s[|s| - |t|..] && AllSpace(s[..|s| - |t|]) && (t == [] || !IsSpace(t[0]))
    requires |r| <= |t| && r == t[..|r|] && AllSpace(t[|r|..]) && (r == [] || !IsSpace(r[|r| - 1]))
    ensures |s| - |t| + |r| <= |s|
    ensures s == s[..|s| - |t|] + r + s[|s| - |t| + |r|..]
    ensures AllSpace(s[..|s| - |t|]) && AllSpace(s[|s| - |t| + |r|..]) && Stripped(r)
  {
    TrimSlice(s, t, r);
    var i := |s| - |t|;
    SplitThree(s, i, i + |r|);
  }

  lemma SplitThree(s: string, i: nat, j: nat)
    requires i <= j <= |s|
    ensures s == s[..i] + s[i..j] + s[j..]
  {
  }

  lemma TrimLowerOfSplit(s: string, lead: string, core: string, tail: string)
    requires s == lead + core + tail
    requires AllSpace(lead) && AllSpace(tail) && Stripped(core)
    ensures Trim(Lower(s)) == Lower(core)
  {
    LowerConcat(lead, core, tail);
    LowerKeepsAllSpace(lead);
    LowerKeepsAllSpace(tail);
    LowerKeepsStripped(core);
    TrimUnique(Lower(s), Lower(lead), Lower(core), Lower(tail));
  }

  lemma LowerKeepsAllSpace(s: string)
    requires AllSpace(s)
    ensures AllSpace(Lower(s))
  {
    forall k | 0 <= k < |s| ensures IsSpace(Lower(s)[k]) {
      LowerCharKeepsSpace(s[k]);
    }
  }

  lemma LowerKeepsStripped(s: string)
    requires Stripped(s)
    ensures Stripped(Lower(s))
  {
    if s != [] {
      LowerCharKeepsSpace(s[0]);
      LowerCharKeepsSpace(s[|s| - 1]);
    }
  }

  lemma LowerConcat(a: string, b: string, c: string)
    ensures Lower(a + b + c) == Lower(a) + Lower(b) + Lower(c)
  {
    var lhs := Lower(a + b + c);
    var rhs := Lower(a) + Lower(b) + Lower(c);
    assert |lhs| == |rhs|;
    forall k | 0 <= k < |lhs| ensures lhs[k] == rhs[k] {
      if k < |a| {
      } else if k < |a| + |b| {
        assert (a + b + c)[k] == b[k - |a|];
      } else {
        assert (a + b + c)[k] == c[k - |a| - |b|];
      }
    }
  }

  // ---------------------------------------------------------------------------
  // sep.join(parts)
  // ---------------------------------------------------------------------------

  /** Python's `sep.join(parts)`. */
  function Join(sep: string, parts: seq<string>): string
  {
    if |parts| == 0 then ""
    else if |parts| == 1 then parts[0]
    else parts[0] + sep + Join(sep, parts[1..])
  }

  /** Proof helper: no part of a join is longer than the joined text. */
  lemma {:induction false} JoinHoldsParts(sep: string, parts: seq<string>)
    ensures forall t :: t in parts ==> |t| <= |Join(sep, parts)|
    decreases |parts|
  {
    if |parts| > 1 {
      JoinHoldsParts(sep, parts[1..]);
      assert forall t :: t in parts ==> t == parts[0] || t in parts[1..];
    }
  }

  /** Number of occurrences of `c` in `s`. */
  function Count(s: string, c: char): nat
  {
    if s == [] then 0 else (if s[0] == c then 1 else 0) + Count(s[1..], c)
  }

  /** Number of occurrences of `c` in all of `parts` together. */
  function CountAll(parts: seq<string>, c: char): nat
  {
    if parts == [] then 0 else Count(parts[0], c) + CountAll(parts[1..], c)
  }

  lemma {:induction false} CountConcat(a: string, b: string, c: char)
    ensures Count(a + b, c) == Count(a, c) + Count(b, c)
  {
    if a == [] {
      assert a + b == b;
    } else {
      assert (a + b)[1..] == a[1..] + b;
      CountConcat(a[1..], b, c);
    }
  }

  /** Joining n >= 1 parts with a one-character separator adds exactly n - 1 separators
      to the separators already inside the parts. */
  lemma {:induction false} JoinSeparators(sep: char, parts: seq<string>)
    requires |parts| >= 1
    ensures Count(Join([sep], parts), sep) == |parts| - 1 + CountAll(parts, sep)
    decreases |parts|
  {
    if |parts| > 1 {
      JoinSeparators(sep, parts[1..]);
      CountConcat(parts[0] + [sep], Join([sep], parts[1..]), sep);
      CountConcat(parts[0], [sep], sep);
      assert Count([sep], sep) == 1 by {
        assert [sep][1..] == [];
      }
    }
  }

  // ---------------------------------------------------------------------------
  // str(n) for integers
  // ---------------------------------------------------------------------------

  predicate IsDigit(c: char) {
    '0' <= c <= '9'
  }

  predicate AllDigits(s: string) {
    forall i :: 0 <= i < |s| ==> IsDigit(s[i])
  }

  function DigitChar(d: nat): (c: char)
    requires d < 10
    ensures IsDigit(c)
  {
    ('0' as int + d) as char
  }

  /** Python's `str(n)` for n >= 0: decimal digits, no leading zero. */
  function NatToString(n: nat): (r: string)
    ensures |r| >= 1 && AllDigits(r)
    ensures |r| > 1 ==> r[0] != '0'
    decreases n
  {
    if n < 10 then [DigitChar(n)] else NatToString(n / 10) + [DigitChar(n % 10)]
  }

  /** The value of a string of decimal digits. */
  function ParseDigits(s: string): nat
    requires AllDigits(s)
  {
    if s == [] then 0 else ParseDigits(s[..|s| - 1]) * 10 + (s[|s| - 1] as int - '0' as int)
  }

  /** Reading back the decimal digits gives the number again. */
  lemma {:induction false} ParseNatToString(n: nat)
    ensures ParseDigits(NatToString(n)) == n
    decreases n
  {
    var s := NatToString(n);
    if n >= 10 {
      ParseNatToString(n / 10);
      assert s[..|s| - 1] == NatToString(n / 10);
    }
  }

  /** Python's `str(n)` for any integer. */
  function IntToString(n: int): (r: string)
    ensures |r| >= 1
    ensures r[0] == '-' <==> n < 0
    ensures n >= 0 ==> AllDigits(r)
  {
    if n < 0 then "-" + NatToString(-n) else NatToString(n)
  }

  /** Distinct integers print differently. */
  lemma IntToStringInjective(a: int, b: int)
    requires IntToString(a) == IntToString(b)
    ensures a == b
  {
    if a < 0 {
      assert NatToString(-a) == IntToString(a)[1..] == IntToString(b)[1..] == NatToString(-b);
      ParseNatToString(-a);
      ParseNatToString(-b);
    } else {
      ParseNatToString(a);
      ParseNatToString(b);
    }
  }
}

=== FILE: wrappers.dfy ===
/** Small result types shared by the other modules. */
module Wrappers {

  /** A value that may be absent (Python's `None`). */
  datatype Option<T> = None | Some(value: T) {

    /** The carried value, or `default` when absent (Python's `d.get(key, default)`). */
    function GetOr(default: T): T {
      match this
      case Some(v) => v
      case None => default
    }
  }

  /** The outcome of a call that may raise: its value, or the message of the exception it raised. */
  datatype Fallible<T> = Ok(value: T) | Raised(error: string)
}
